=== FILE: README.md ===
# gitdeployhooks in Dafny

A model of the two git hooks of `gitdeployhooks` (the `deploy_coordinator`
package) and proofs about them:

- the **pre-receive gate**. It splits git's `old new ref` line and takes the
  branch from the ref. On `master` it checks `buildfile.json` out into a
  scratch directory. It rejects the push (exit 1) unless the file is valid
  JSON holding a `project.name`. A missing file, malformed JSON or a missing
  name is reported, and the scratch directory is removed first. A document
  whose root is not an object, or a file that cannot be opened, makes the
  hook raise instead: the exit status is still 1, and the scratch directory
  is left in place.
- the **post-receive deployer**. On `master` it makes the bundle directories
  (`_permanent/`, `_application/`) and checks the commit out into the scratch
  directory. Each `storage.dirs` entry is replaced there by a symlink to a
  permanent directory. Then it hands the scratch directory to `shutil.move`
  with `_application/` as the destination. When `_application/` is a
  directory, the tree lands inside it as `_application/<commit>`. The hook
  then points the relative `ln-release` symlink at `_application/<commit>`,
  purges older releases and runs `composer install` when
  `composer.workingDir` is set.
- the **helpers** they rely on: `ParseJson.key` (dotted lookup in the build
  file) and the `FileSystem` operations (`tempDirFor`, `removeDir`, `remove`,
  `genSymlink`, `mvFromTo`, `purgeOtherDirectoriesInDirectoryExcept`).

The file system is a finite map from resolved absolute paths (lists of names)
to `Dir`, `File` or `Symlink(text)`. Path strings are built with a model of
`os.path.join` and resolved with a model of `os.path.abspath`. Each OS call
that can raise returns `Err(errno)`, and every hook step is a pure function from
one state (the hook object's memoised attributes, the file system, the report
so far) to the next. What the hooks print is kept as a list of tags, one per
message that matters (`Event`). An exit is an `ExitStatus` (pre-receive) or the
final `Finish` record (post-receive).

Files, one module each: `results.dfy` (`Option`, `Result`), `strings.dfy`
(Python 2 `split`/`join`/`split()`), `json.dfy` (decoded JSON values and
`dict.get`), `parse_json.dfy`, `paths.dfy`, `file_system.dfy`,
`pre_receive.dfy`, `post_receive.dfy`.

The model follows the code:

- every exit of the post-receive runner is `sys.exit(0)`. A failed clone or
  storage binding ends the run with status 0.
- failures to move the release, re-point the symlink or purge are only
  reported. The run goes on and still reports `Project structure OK`.
- composer runs after the cutover, and its failure is only reported.
- `key('a.b')` with `a` absent stays at the root and reads the top-level `b`
  (`ParseJson.KeyFallsBackToRoot`).
- the pre-receive gate makes the scratch directory before the checkout.
- `os.path.exists` on a text ending in `/` is false for a file, so
  `os.makedirs` then raises (`FileSystem.ExistsText`).
- `json.load` gives Python 2 `unicode` strings, and `str()` of one with a
  non-ASCII character raises `UnicodeEncodeError` (`Json.IsAscii`,
  `Json.Printable`). This happens on three lines: the `project.name` in the
  pre-receive success message, a storage entry in the `Added permanent
  storage` note, and `composer.workingDir` in the composer note. The first
  makes the pre-receive hook raise. The second ends the storage step before
  the link is made. The third is caught, and composer does not run. The
  `repr` of any other JSON value is ASCII, so those values print.
- the purge reads `_application/` through `os.listdir`, which follows a
  symlink, so a symlinked `_application/` is purged in the directory it
  leads to.

## Model

| member | source | states |
|---|---|---|
| Json.Get | deploy_coordinator/system/parse_json.py:20 | `dict.get(k, None)` answers None exactly when the key is absent or bound to JSON null; otherwise the stored value |
| ParseJson.KeyPath | deploy_coordinator/system/parse_json.py:15-27 | the lookup raises exactly when the document root is not an object; an absent key anywhere is a miss, never an error; a hit is never null |
| ParseJson.Key | deploy_coordinator/system/parse_json.py:14-27 | the same for the dotted string: it fails only on a non-object root |
| ParseJson.KeySingleSegment | deploy_coordinator/system/parse_json.py:19-20 | a key without a dot is a top-level `get`: the entry, or None when it is absent |
| ParseJson.WalkAppend | deploy_coordinator/system/parse_json.py:23-26 | the loop over `keys + [k]` is the loop over `keys` followed by one more step |
| ParseJson.WalkFollowsObjects | deploy_coordinator/system/parse_json.py:23-25 | along a path of objects the loop's cursor is the object a strict descent reaches |
| ParseJson.WalkLandsOnFinalCursor | deploy_coordinator/system/parse_json.py:23-26 | over a strict path the loop reaches the strict cursor of all but the last segment, then steps once more |
| ParseJson.KeyAgreesWithStrictLookup | deploy_coordinator/system/parse_json.py:22-27 | when every intermediate segment names an object and the last a non-object, the lookup returns what a strict lookup returns |
| ParseJson.ProjectNameLookup | deploy_coordinator/system/parse_json.py:22-27 | `project.name` on `{"project":{"name":X}}` gives X |
| ParseJson.KeyFallsBackToRoot | deploy_coordinator/system/parse_json.py:23-27 | when `a` is absent or not an object at the top, `key('a.b')` returns the top-level `b` |
| ParseJson.KeyDescendsIntoFinalObject | deploy_coordinator/system/parse_json.py:24-27 | when the strict path ends at an object, the lookup descends into it and returns that object's entry named after the last segment |
| ParseJson.KeyFinalObjectExample | deploy_coordinator/system/parse_json.py:24-27 | `project.name` on a document whose `name` is an object yields None |
| Strings.Split | deploy_coordinator/system/parse_json.py:17 | `split('.')` gives at least one part and no part holds the separator |
| Strings.SplitThenJoin | deploy_coordinator/system/parse_json.py:17 | joining the parts of a split with the separator gives the string back |
| Strings.JoinThenSplit | deploy_coordinator/system/parse_json.py:17 | splitting a join of separator-free parts gives the parts back |
| Strings.SplitWithoutSeparator | deploy_coordinator/system/parse_json.py:17-19 | a string without the separator splits into itself alone |
| Strings.SplitAround | deploy_coordinator/system/parse_json.py:17 | a separator between `a` and `b` splits into the parts of `a` followed by the parts of `b` |
| Strings.LastSegmentIsSuffix | deploy_coordinator/hooks/pre_receive.py:75 | the branch (`ref.split('/')[-1]`) is the separator-free suffix of the ref after its last `/`, or the whole ref |
| Strings.LastSegmentIs | deploy_coordinator/hooks/pre_receive.py:75 | the last segment is `b` exactly when the ref is `b` or ends in `/b` |
| Strings.WordLength | deploy_coordinator/hooks/pre_receive.py:69-74 | the first token of `split()` runs up to the first whitespace character |
| Strings.Words | deploy_coordinator/hooks/pre_receive.py:69-74 | `split()` yields non-empty tokens free of whitespace |
| Strings.WordsKeepAllText | deploy_coordinator/hooks/pre_receive.py:69-74 | the tokens, concatenated, are exactly the non-whitespace characters of the input |
| Strings.WordsOfWordThen | deploy_coordinator/hooks/pre_receive.py:69-74 | a token followed by whitespace is the first token |
| Strings.WordsOfJoin | deploy_coordinator/hooks/pre_receive.py:69-74 | tokens joined by single spaces split back into the same tokens |
| Strings.WordsIgnoreTrailingSpace | deploy_coordinator/hooks/pre_receive.py:69-74 | trailing whitespace, such as the newline ending git's line, adds no token |
| Paths.NormalizeAppend | deploy_coordinator/hooks/post_receive.py:77 | `abspath` applies the components of `x + y` as those of `x`, then those of `y` |
| Paths.ResolveAppendComponent | deploy_coordinator/hooks/post_receive.py:77 | resolving `a/c` resolves `a`, then applies the components of `c` |
| Paths.ResolveJoinName | deploy_coordinator/hooks/post_receive.py:160-162 | `os.path.join(a, name)` leads one level below where `a` leads, to `name` |
| Paths.ResolveTwoNames | deploy_coordinator/hooks/post_receive.py:115 | a relative text `a/n` of two names leads two levels below the directory it is read in |
| Paths.JoinEmptyKeepsTarget | deploy_coordinator/hooks/post_receive.py:159 | `os.path.join(a, '')` ends in a separator (or is empty) and leads where `a` leads |
| Paths.NormalizeExtends | deploy_coordinator/hooks/post_receive.py:77 | applying components with no `..` never climbs above the base, and a name component goes strictly below it |
| Paths.ResolveStaysBelow | deploy_coordinator/hooks/post_receive.py:77 | a relative storage path without `..` resolves inside the scratch directory |
| Paths.JoinParts | deploy_coordinator/hooks/post_receive.py:87 | `os.path.join(a, b)` is `b` when `b` is absolute, otherwise `a`, at most one separator, then `b`; it is absolute exactly when a part is |
| Paths.JoinResolves | deploy_coordinator/hooks/post_receive.py:77 | `abspath(join(a, b))` is where `b` leads when read in the directory `a` leads to |
| Paths.NormalizeNames | deploy_coordinator/hooks/post_receive.py:77 | separator-free components over a path of names give a path of names |
| Paths.ResolveNames | deploy_coordinator/hooks/post_receive.py:77 | `abspath` of an absolute text, or of any text from a normalised working directory, holds only proper names |
| FileSystem.RemoveDir | deploy_coordinator/system/file_system.py:15-16 | `rmtree` succeeds exactly on a real directory other than the root and deletes it with everything below, nothing else |
| FileSystem.Remove | deploy_coordinator/system/file_system.py:32-33 | `os.remove` succeeds exactly on a file or symlink and deletes exactly that entry |
| FileSystem.AddDirs | deploy_coordinator/system/file_system.py:10-11 | adds `p` and its ancestors as directories, keeping every existing entry |
| FileSystem.MakeDirs | deploy_coordinator/system/file_system.py:10-11 | `os.makedirs` succeeds exactly when `p` is absent and no ancestor is a non-directory; it adds `p` and its missing ancestors as directories and changes nothing else |
| FileSystem.GenSymlink | deploy_coordinator/system/file_system.py:27-28 | `os.symlink(t, l)` succeeds exactly when `l` is absent and its directory exists; it adds exactly `l` as a symlink holding `t` |
| FileSystem.Relocate | deploy_coordinator/system/file_system.py:19-20 | the subtree at `src` appears re-rooted at the destination with the same entries; nothing is left at `src`; paths outside both are untouched |
| FileSystem.Move | deploy_coordinator/system/file_system.py:19-20 | `shutil.move` succeeds exactly when the source exists, the destination inside a directory is free, the target is not inside the source and its directory exists; the subtree reappears there, nothing is left at the source and all else is untouched |
| FileSystem.MoveIntoDir | deploy_coordinator/system/file_system.py:19-20 | a successful move into a real directory puts the subtree under the source's last name, leaves nothing behind and changes nothing else |
| FileSystem.MoveMovesTo | deploy_coordinator/system/file_system.py:19-20 | a successful move re-roots the subtree at its destination, leaves nothing at the source and changes nothing else |
| FileSystem.MoveKeepsDestDir | deploy_coordinator/system/file_system.py:19-20 | a real destination directory stays one after a move into it |
| FileSystem.MoveOntoFileFails | deploy_coordinator/system/file_system.py:19-20 | moving a directory onto an existing file fails, so the scratch directory is not renamed over a file named `_application` |
| FileSystem.InListDir | deploy_coordinator/system/file_system.py:38 | `os.listdir(dir)` names exactly the direct children of `dir` |
| FileSystem.DirAtIsRealDir | deploy_coordinator/system/file_system.py:38 | the directory `os.listdir` reads, following a symlink one level, is a real directory, and it is the path itself when that is no symlink |
| FileSystem.Purge | deploy_coordinator/system/file_system.py:37-48 | succeeds exactly when `dir` is a directory, following a symlink at `dir` one level as `os.listdir` does; in the directory reached it keeps symlinks, excepted names and non-directories among the children (and all below an excepted child); afterwards no plain directory child is left unless excepted; it only deletes and touches nothing outside that directory |
| FileSystem.PurgeVisit | deploy_coordinator/system/file_system.py:39-48 | one loop turn: its checks on the partly purged tree pick out the doomed children of the original tree, and deleting one extends the visited set by it |
| FileSystem.PurgeOtherDirectoriesInDirectoryExcept | deploy_coordinator/system/file_system.py:37-48 | the listing loop, in any visiting order, ends in the same tree as `Purge` |
| FileSystem.TempDirFor | deploy_coordinator/system/file_system.py:8-12 | the path is `tmp + "/deploy_coord/" + name + "/"`, a directory afterwards; an existing directory is left alone and a file there makes it raise; it only adds directories |
| FileSystem.TempDirForIdempotent | deploy_coordinator/system/file_system.py:8-12 | a second call finds the directory the first one made and changes nothing |
| FileSystem.TempDirResolves | deploy_coordinator/system/file_system.py:9 | the scratch directory is `deploy_coord/<name>` inside the temp directory |
| FileSystem.RemoveDirKeepsWellFormed | deploy_coordinator/system/file_system.py:15-16 | `rmtree` keeps every entry inside a directory |
| FileSystem.RemoveKeepsWellFormed | deploy_coordinator/system/file_system.py:32-33 | `os.remove` keeps every entry inside a directory |
| FileSystem.MakeDirsKeepsWellFormed | deploy_coordinator/system/file_system.py:10-11 | `os.makedirs` keeps every entry inside a directory |
| FileSystem.RelocateKeepsWellFormed | deploy_coordinator/system/file_system.py:19-20 | re-rooting a subtree under an existing directory, at a place that is not a directory, keeps every entry inside a directory |
| FileSystem.MoveKeepsWellFormed | deploy_coordinator/system/file_system.py:19-20 | a successful `shutil.move` keeps every entry inside a directory |
| FileSystem.GenSymlinkKeepsWellFormed | deploy_coordinator/system/file_system.py:27-28 | `os.symlink` keeps every entry inside a directory |
| FileSystem.CondemnedReachesBelow | deploy_coordinator/system/file_system.py:48 | deleting a child deletes everything below it |
| FileSystem.PurgeKeepsWellFormed | deploy_coordinator/system/file_system.py:37-48 | the purge keeps every entry inside a directory |
| FileSystem.PurgeIdempotent | deploy_coordinator/system/file_system.py:37-48 | a second purge with the same exceptions deletes nothing more, when a symlink at `dir` does not lead to a directory that holds it |
| FileSystem.WellFormedAncestor | deploy_coordinator/system/file_system.py:15-16 | in a well-formed tree every non-root proper prefix of an entry is a directory, so `rmtree` of a path takes all entries below it |
| FileSystem.ExistsTextGrows | deploy_coordinator/hooks/post_receive.py:42-47 | adding entries never makes `os.path.exists` false for a text it saw |
| FileSystem.Overlay | deploy_coordinator/hooks/post_receive.py:168-172 | `git checkout -f` writes every entry of the commit's tree below the work tree, touches nothing outside it, and adds nothing but the tree's entries |
| PreReceive.ParseInput | deploy_coordinator/hooks/pre_receive.py:69-75 | the input is accepted exactly when `split()` gives three tokens, which become old id, new id and ref; the branch is the ref's part after its last `/` |
| PreReceive.ParseInputOfHookLine | deploy_coordinator/hooks/pre_receive.py:69-75 | git's line `old new ref\n` parses back into its three tokens |
| PreReceive.MasterRef | deploy_coordinator/hooks/pre_receive.py:75 | the branch is `master` exactly when the ref is `master` or ends in `/master` |
| PreReceive.BranchIsMaster | deploy_coordinator/hooks/pre_receive.py:86-87 | for a branch taken from the ref, the hook deploys exactly when the ref is `master` or ends in `/master` |
| PreReceive.CheckoutBuildfile | deploy_coordinator/hooks/pre_receive.py:95-99 | a successful checkout leaves `buildfile.json` in the scratch directory as a file and adds nothing else |
| PreReceive.ExitStatus | deploy_coordinator/hooks/pre_receive.py:15-27 | the status is 0 or 1, and 0 exactly for another branch or an accepted build file |
| PreReceive.TmpDir | deploy_coordinator/hooks/pre_receive.py:90-93 | a cached path is returned without effect; the first call records the `tempDirFor` path, which is a directory afterwards; it only adds directories |
| PreReceive.ParsedBuildFile | deploy_coordinator/hooks/pre_receive.py:105-111 | a cached result (None included) is returned without effect; the first call caches the document, or None for malformed JSON, and a file that cannot be opened raises |
| PreReceive.TmpDirMemoised | deploy_coordinator/hooks/pre_receive.py:90-93 | once computed, `tmpDir()` answers the same path whatever the file system has become |
| PreReceive.ParsedBuildFileMemoised | deploy_coordinator/hooks/pre_receive.py:105-111 | once computed, `parsedBuildFile()` answers the first result whatever the file now holds |
| PreReceive.Cleanup | deploy_coordinator/hooks/pre_receive.py:101-102 | unless `rmtree` raises, the scratch directory is gone afterwards and the hook keeps its recorded path |
| PreReceive.PreReceiveRunner | deploy_coordinator/hooks/pre_receive.py:13-59 | a non-master push passes with no effect; the push is accepted exactly when checkout, JSON and `project.name` all succeed and the name is not a string `str()` cannot encode, leaving the build file in place; each reported rejection has its own cause and removes the scratch directory; a name with a non-ASCII character makes the hook raise at line 57, exiting 1 with the build file still in the scratch directory |
| PostReceive.LayoutFor | deploy_coordinator/hooks/post_receive.py:157-162 | the build directory ends in a separator; `ln-release`, `_permanent/` and `_application/` are appended to it |
| PostReceive.LayoutResolves | deploy_coordinator/hooks/post_receive.py:159-162 | the layout paths lead to the build directory and to `ln-release`, `_permanent` and `_application` inside it |
| PostReceive.ReleaseLinkTextResolves | deploy_coordinator/hooks/post_receive.py:113-115 | read in a directory, the link text `_application/<commit>` leads to that directory's `_application/<commit>` |
| PostReceive.ReleaseLinkLeadsToRelease | deploy_coordinator/hooks/post_receive.py:113-115 | read from beside `ln-release`, the relative link text leads to the release directory `<locAppBundle>/<commit>` |
| PostReceive.PostReceiveInit | deploy_coordinator/hooks/post_receive.py:157-163 | the post-receive hook accepts exactly the inputs the pre-receive hook accepts, with the layout derived from `buildDir` |
| PostReceive.StorageDirsKey | deploy_coordinator/hooks/post_receive.py:65 | the lookup on the split constant is `key('storage.dirs')` |
| PostReceive.ComposerWorkingDirKey | deploy_coordinator/hooks/post_receive.py:135 | the lookup on the split constant is `key('composer.workingDir')` |
| PostReceive.StorageReportChain | deploy_coordinator/hooks/post_receive.py:76-94 | the storage loop's report, turn after turn, holds only storage notes and at most a final failure |
| PostReceive.MakeIfMissing | deploy_coordinator/hooks/post_receive.py:42-47 | an existing path (as `os.path.exists` sees the text) is left alone; afterwards `os.path.exists` sees it; a file at a `/`-terminated text makes `os.makedirs` raise; only directories on its way are added |
| PostReceive.EnsureBundleDirs | deploy_coordinator/hooks/post_receive.py:41-49 | a failure is only reported; without one `os.path.exists` sees the build, `_permanent/` and `_application/` texts; a file at `_permanent` is reported; only directories are added |
| PostReceive.CloneProject | deploy_coordinator/hooks/post_receive.py:52-59 | the run ends exactly when the scratch directory cannot be made or git fails, with the clone failure reported last; otherwise the scratch directory is the `tempDirFor` path and holds the commit's tree |
| PostReceive.BindStorageDir | deploy_coordinator/hooks/post_receive.py:77-94 | on success `<tmp>/<p>` is a symlink holding `<permanent>/<p>`, which exists; a creation, even one followed by a failing link, made a real directory, and a bound turn always creates a missing one; a missing directory named by a non-ASCII path fails the turn, because the note at line 90 raises before the link is made; only the link's subtree is deleted and only the link and the directories down to `<permanent>/<p>` are added |
| PostReceive.ClearLinkPlace | deploy_coordinator/hooks/post_receive.py:79-84 | the start of a turn only deletes, keeps everything outside the link's subtree and, in a well-formed tree, leaves nothing below the link |
| PostReceive.PlacePermanent | deploy_coordinator/hooks/post_receive.py:86-94 | the permanent directory is created exactly when `os.path.exists` does not see it and `os.makedirs` succeeds; after a creation a non-ASCII path raises in the note, so no link is made; a bound turn leaves the link; only the link and the directories down to the permanent one are added |
| PostReceive.StoragePathsApart | deploy_coordinator/hooks/post_receive.py:77-87 | a relative storage path without `..` puts the link and the permanent directory apart when the scratch and permanent directories are |
| PostReceive.BindStorageDirClears | deploy_coordinator/hooks/post_receive.py:79-89 | for a relative path without `..` and a scratch directory apart from `_permanent/`, nothing git put below `<tmp>/<p>` remains and an existing permanent directory is kept, not created again |
| PostReceive.BindItem | deploy_coordinator/hooks/post_receive.py:76-94 | a non-string entry ends the run; a created permanent directory is reported before a failing link; a reported one is a real directory; a non-ASCII entry is never reported and ends the run when its permanent directory is missing; a continuing turn leaves the link and touches nothing outside the link's subtree |
| PostReceive.BindStorageDirs | deploy_coordinator/hooks/post_receive.py:76-98 | the loop continues only when every entry was a string; its report holds storage notes and at most a final failure; the hook's scratch directory is kept |
| PostReceive.StorageLoopKeeps | deploy_coordinator/hooks/post_receive.py:76-94 | an entry outside every entry's link is kept by the whole loop, however it ends |
| PostReceive.StorageLinksBound | deploy_coordinator/hooks/post_receive.py:76-94 | a finished loop over entries whose links do not contain each other leaves, for every entry, `<tmp>/<entry>` a symlink holding `<permanent>/<entry>` |
| PostReceive.ApplyStorageRules | deploy_coordinator/hooks/post_receive.py:62-98 | an absent `storage.dirs` only warns and leaves the tree as it is; a value that is not a list ends the run; continuing leaves the parsed build file cached |
| PostReceive.StorageRules | deploy_coordinator/hooks/post_receive.py:65-98 | on the parsed document: an absent `storage.dirs` only warns and changes nothing; a value that is not a list ends the run; the storage report is kept in order |
| PostReceive.MoveToRelease | deploy_coordinator/hooks/post_receive.py:102-106 | reports success exactly when `shutil.move` of the scratch directory to `_application/` succeeds; with `_application/` a directory, the tree lands at `_application/<last name>`, nothing is left behind, nothing else changes and `_application/` stays a directory; a failure is only reported and, once the scratch directory is known, leaves the files as they were |
| PostReceive.MoveScratch | deploy_coordinator/hooks/post_receive.py:102-106 | `shutil.move` of a known scratch directory: success is reported exactly when the move succeeds; a failure leaves the files as they were; a real `_application/` stays one and receives the tree under the scratch directory's name |
| PostReceive.PointRelease | deploy_coordinator/hooks/post_receive.py:109-117 | succeeds exactly when `ln-release` is absent or a symlink and its directory exists; then it holds `_application/<commit>`; a file or directory at `ln-release` is never removed; nothing else changes |
| PostReceive.PurgeStale | deploy_coordinator/hooks/post_receive.py:120-124 | in the directory `_application/` leads to, afterwards the only plain directory is the release; symlinks and non-directories there stay; it only deletes, and keeps the release and everything outside that directory; it reports a failure exactly when `_application/` is not a directory |
| PostReceive.Cutover | deploy_coordinator/hooks/post_receive.py:101-124 | the move, the symlink and the purge report the move's outcome, perhaps a symlink failure, then the purge's outcome |
| PostReceive.ComposerEvents | deploy_coordinator/hooks/post_receive.py:133-146 | an absent `composer.workingDir` is reported as such; a present value is announced exactly when `str()` can print it; composer runs exactly when it is an ASCII string, in `<locAppBundle>/<commit>/<workingDir>`; any other value fails, after the announcement for a non-string |
| PostReceive.RunComposer | deploy_coordinator/hooks/post_receive.py:133-146 | the step reports one or two composer notes, exactly those of `ComposerEvents` for the cached build file, and leaves the tree unchanged |
| PostReceive.CutoverLogInOrder | deploy_coordinator/hooks/post_receive.py:101-117 | the move and symlink reports follow the earlier stages in order |
| PostReceive.ReleaseLogInOrder | deploy_coordinator/hooks/post_receive.py:101-146 | the release stages' reports follow the earlier stages in order |
| PostReceive.ReleaseEventsShape | deploy_coordinator/hooks/post_receive.py:101-146 | the cutover's reports, `Project structure OK` and the composer notes, in that order, make the release stages' report: the move first, perhaps a symlink failure, the purge, then `Project structure OK` |
| PostReceive.Release | deploy_coordinator/hooks/post_receive.py:101-146 | the stages after the storage step report in that shape whatever fails, and leave the files as the cutover left them |
| PostReceive.AfterCutover | deploy_coordinator/hooks/post_receive.py:126-146 | after the cutover come `Project structure OK` and the composer notes, and the files stay as the cutover left them |
| PostReceive.CutoverReported | deploy_coordinator/hooks/post_receive.py:101-146 | a move and no symlink failure in the release stages' report are the cutover's, and the release leaves the cutover's tree |
| PostReceive.MovedLeads | deploy_coordinator/hooks/post_receive.py:101-146 | among the release stages' reports, a successful move can only come first |
| PostReceive.ReleaseLandsTree | deploy_coordinator/hooks/post_receive.py:101-124 | after a move into a real `_application/` the scratch tree sits at `_application/<commit>`, and the symlink and purge steps keep it |
| PostReceive.PointThenPurgeKeeps | deploy_coordinator/hooks/post_receive.py:108-124 | an entry inside the release survives the symlink and purge steps when `_application/` is a real directory and `ln-release` lies outside the release |
| PostReceive.ReleaseLands | deploy_coordinator/hooks/post_receive.py:101-124 | a release whose report shows the move and no symlink failure ends with the scratch tree at `_application/<commit>` and `ln-release` holding `_application/<commit>` |
| PostReceive.Prepare | deploy_coordinator/hooks/post_receive.py:39-98 | the stages before the release keep the report in order and reach no later stage; continuing, the scratch directory is the `tempDirFor` path |
| PostReceive.PostReceiveRunner | deploy_coordinator/hooks/post_receive.py:19-150 | every exit has status 0; a non-master push changes nothing and is only reported |
| PostReceive.StorageReportInOrder | deploy_coordinator/hooks/post_receive.py:62-98 | the storage step keeps the report in order, and its failure, if any, is the last event |
| PostReceive.ReleaseNeverAborts | deploy_coordinator/hooks/post_receive.py:101-130 | nothing after the storage step ends the run, and `Project structure OK` is always reached |
| PostReceive.OpeningInOrder | deploy_coordinator/hooks/post_receive.py:30-49 | the report opens with the accepted commit, perhaps followed by the bundle-directory failure |
| PostReceive.AbortedReport | deploy_coordinator/hooks/post_receive.py:52-98 | a run ended by the clone or storage step reports no later stage |
| PostReceive.CloneAbortReport | deploy_coordinator/hooks/post_receive.py:52-59 | a failed clone ends the report in order, after the opening |
| PostReceive.StorageAbortReport | deploy_coordinator/hooks/post_receive.py:62-98 | a failed storage step ends the report in order, after its notes |
| PostReceive.ReleasedReport | deploy_coordinator/hooks/post_receive.py:101-150 | a run that passes the storage step reports every later stage in order, and `Project structure OK` |
| PostReceive.RunnerReport | deploy_coordinator/hooks/post_receive.py:19-150 | a non-master push reports only that; on `master` the stages come in order, an abort only as the last event, and `Project structure OK` exactly when nothing aborted |
| PostReceive.ReleaseSetsPointer | deploy_coordinator/hooks/post_receive.py:108-124 | with `_application/` a real directory, unless the symlink step failed, `ln-release` ends holding `_application/<commit>`; the purge does not touch it |
| PostReceive.RunSetsPointer | deploy_coordinator/hooks/post_receive.py:108-124 | a run reaching `Project structure OK` without a symlink failure, with `_application/` a real directory when the release stages start, leaves `ln-release` holding `_application/<commit>` |
| PostReceive.RunLandsTree | deploy_coordinator/hooks/post_receive.py:101-124 | a whole run that moves the tree without a symlink failure ends with the scratch tree at `_application/<commit>` and `ln-release` holding `_application/<commit>` |
| PostReceive.ReleaseGoesLive | deploy_coordinator/hooks/post_receive.py:101-124 | in the hook's own layout, a run that moves the tree without a symlink failure ends with the checked-out tree at `_application/<commit>` and `ln-release` holding the text that leads there |

## Left out

- `deploy_coordinator/system/execute.py` (subprocesses found via `which`): git's checkout of the build file is a boolean parameter. The post-receive checkout is a tree parameter (`None` when git fails). Composer is not run; only the decision to run it and its working directory are modelled.
- `deploy_coordinator/cli/formatter.py` and `output.py` are presentation, except that `Formatter`'s `+` calls `str()` on both sides, which raises for non-ASCII text; that raise is modelled. Each message that matters is an `Event` tag, and progress-only lines (`Cloning code to tmp dir`, `Applying buildfile rules`, `Inspecting composer settings`) have no tag.
- `json.load` is a parameter (`JsonLoad`): a document, malformed JSON (`ValueError`), or a file that cannot be opened. JSON numbers are `real`, and their text form is not modelled.
- `tempfile.gettempdir()` and the working directory are parameters (`Env`).
- `ParseJson.key` cannot change the stored document, since Dafny values are immutable, so the "lookup is read-only" promise holds without a lemma.
- Symlinks are followed one level deep (`Stat`); a link to a link counts as missing. Symlinks in intermediate path components are not followed.
- `FileSystem.MakeDirs`: an ancestor that is a symlink to a directory makes it fail, where `os.makedirs` would go through the link.
- `FileSystem.Move`: `shutil.move` falls back to copy-and-delete across devices. The model is a rename, so a non-directory may replace a non-directory and no copy failure is modelled. A symlinked destination directory is followed one level, like other symlinks here.
- `PostReceive.RunComposer`: composer's exit status and its effect on the files are not modelled; the source does not inspect them either.
- `PreReceive.ParseInput`: only one line of input is modelled; git feeding several refs in one push is not.
- `PostReceive.PostReceiveInit`: a `settings` dictionary without `buildDir` (a `KeyError`) is not modelled; the setting is a parameter.
- `PostReceive.BindStorageDirClears`: proved only for a relative storage path without `..`, a scratch directory that lies apart from `_permanent/`, and a well-formed tree. An absolute storage path or one with `..` can make the link and the permanent directory overlap.
- `PostReceive.StorageLinksBound`: proved only when no later `storage.dirs` entry's link lies at or above an earlier entry's link. Otherwise the later turn's `rmtree` deletes the earlier link, as the source would.
- `PostReceive.ReleaseGoesLive`: assumes `_application/` is a real directory when the move starts. When it is missing, `shutil.move` renames the scratch directory to that path. When it is a file, the move fails and is reported as such (`FileSystem.MoveOntoFileFails`). Either way the link then leads nowhere useful.
- File names are assumed to encode under the file-system encoding (a UTF-8 locale), so `os.path` calls on non-ASCII names do not raise.
- `PostReceive.ReleaseSetsPointer`, `PostReceive.RunSetsPointer`: proved only when `_application/` is a real directory when the release stages start. A symlinked `_application/` makes the purge work in the directory it leads to, which may hold `ln-release` itself.
- `FileSystem.PurgeIdempotent`: proved only when a symlink at `dir` does not lead to a directory above it. Otherwise the first purge may delete the link itself, and the second then fails.
- The `isSymlink`, `fileExists` and `exists` helpers of `FileSystem` are the predicates `IsSymlink` and `Exists`, with no members of their own.
- Concurrency between pushes, permissions and file contents are not modelled.

=== FILE: file_system.dfy ===
/** The `FileSystem` helpers of the hooks, over an abstract file system: a
    finite map from resolved absolute paths to what is stored there. Each
    operation that can raise `OSError` returns `Err(errno)` instead. */
module FileSystem {
  import opened Results
  import Strings
  import Paths

  type Path = Paths.Path

  datatype Entry = Dir | File | Symlink(target: string)

  type Tree = map<Path, Entry>

  /** The `errno` of the `OSError` an operation raises. */
  datatype Errno = ENOENT | EEXIST | ENOTDIR | EISDIR | EINVAL | EBUSY

  /** What is stored at `p` itself, without following a symlink (`os.lstat`).
      The root always exists and is a directory. */
  function Lookup(fs: Tree, p: Path): Option<Entry>
  {
    if p == [] then Some(Dir) else if p in fs then Some(fs[p]) else None
  }

  /** Where a symlink at `link` whose text is `target` leads: a relative target
      is read from the directory holding the link. */
  function LinkTarget(link: Path, target: string): Path
  {
    Paths.Resolve(Paths.Parent(link), target)
  }

  /** `os.stat`: what `p` leads to, following a symlink once. A link to a link
      counts as dangling. */
  function Stat(fs: Tree, p: Path): Option<Entry>
  {
    match Lookup(fs, p)
    case Some(Symlink(t)) =>
      (match Lookup(fs, LinkTarget(p, t))
       case Some(Symlink(_)) => None
       case other => other)
    case other => other
  }

  /** `os.path.exists`: follows a symlink, so a dangling one does not exist. */
  predicate Exists(fs: Tree, p: Path)
  {
    Stat(fs, p).Some?
  }

  /** `os.path.exists(s)` on a path text read from `cwd`. The empty text names
      nothing. A text ending in `/` names a directory, so there only a
      directory (or a symlink to one) exists and a file does not. */
  predicate ExistsText(fs: Tree, cwd: Path, s: string)
  {
    var p := Paths.Resolve(cwd, s);
    if s == "" then false
    else if s[|s| - 1] == '/' then IsDir(fs, p)
    else Exists(fs, p)
  }

  /** `os.path.isdir`: follows a symlink. */
  predicate IsDir(fs: Tree, p: Path)
  {
    Stat(fs, p) == Some(Dir)
  }

  /** `os.path.islink`. */
  predicate IsSymlink(fs: Tree, p: Path)
  {
    p in fs && fs[p].Symlink?
  }

  /** A directory entry proper (not a symlink to one), or the root. */
  predicate IsRealDir(fs: Tree, p: Path)
  {
    Lookup(fs, p) == Some(Dir)
  }

  /** The tree shape every real file system has: the root is implicit and
      every entry lies in a directory. */
  predicate WellFormed(fs: Tree)
  {
    && [] !in fs
    && forall p :: p in fs ==> IsRealDir(fs, Paths.Parent(p))
  }

  /** `fs` with `p` and everything below it deleted. */
  function Without(fs: Tree, p: Path): Tree
  {
    map q | q in fs && !(p <= q) :: fs[q]
  }

  /** `FileSystem.removeDir` (`shutil.rmtree`): refuses a symlink and anything
      that is not a directory; otherwise deletes the directory and everything
      below it. */
  function RemoveDir(fs: Tree, p: Path): (r: Result<Tree, Errno>)
    ensures r.Ok? <==> p != [] && p in fs && fs[p] == Dir
    ensures r.Ok? ==> forall q :: p <= q ==> q !in r.value
    ensures r.Ok? ==> forall q :: !(p <= q) ==> (q in r.value <==> q in fs)
    ensures r.Ok? ==> forall q :: q in r.value ==> r.value[q] == fs[q]
  {
    if p == [] then Err(EBUSY)
    else
      match Lookup(fs, p)
      case None => Err(ENOENT)
      case Some(Symlink(_)) => Err(EINVAL)
      case Some(File) => Err(ENOTDIR)
      case Some(Dir) => Ok(Without(fs, p))
  }

  /** `FileSystem.remove` (`os.remove`): deletes exactly one file or symlink;
      a directory or a missing path raises. */
  function Remove(fs: Tree, p: Path): (r: Result<Tree, Errno>)
    ensures r.Ok? <==> p in fs && p != [] && fs[p] != Dir
    ensures r.Ok? ==> r.value.Keys == fs.Keys - {p}
    ensures r.Ok? ==> forall q :: q in r.value ==> r.value[q] == fs[q]
  {
    match Lookup(fs, p)
    case None => Err(ENOENT)
    case Some(Dir) => Err(EISDIR)
    case Some(_) => Ok(fs - {p})
  }

  /** The non-root prefixes of `p`, `p` included: the directories
      `os.makedirs(p)` needs. */
  function Ancestors(p: Path): set<Path>
  {
    set i | 0 < i <= |p| :: p[..i]
  }

  lemma AncestorsStep(p: Path)
    requires |p| > 0
    ensures Ancestors(p) == Ancestors(p[..|p| - 1]) + {p}
  {
    var up := p[..|p| - 1];
    forall q | q in Ancestors(p)
      ensures q in Ancestors(up) + {p}
    {
      var i :| 0 < i <= |p| && q == p[..i];
      if i < |p| {
        assert 0 < i <= |up| && q == up[..i];
      } else {
        assert q == p;
      }
    }
    forall q | q in Ancestors(up)
      ensures q in Ancestors(p)
    {
      var i :| 0 < i <= |up| && q == up[..i];
      assert q == p[..i];
    }
    assert p == p[..|p|];
  }

  /** `p` and every missing ancestor of it added as directories. */
  function AddDirs(fs: Tree, p: Path): (r: Tree)
    ensures r.Keys == fs.Keys + Ancestors(p)
    ensures forall q :: q in fs ==> r[q] == fs[q]
    ensures forall q :: q in r && q !in fs ==> r[q] == Dir
    decreases |p|
  {
    if |p| == 0 then fs
    else
      var r := AddDirs(fs, p[..|p| - 1]);
      AncestorsStep(p);
      if p in r then r else r[p := Dir]
  }

  /** No proper ancestor of `p` exists as anything but a directory. */
  predicate AncestorsOpen(fs: Tree, p: Path)
  {
    forall i :: 0 < i < |p| ==> p[..i] in fs ==> fs[p[..i]] == Dir
  }

  /** `os.makedirs`: creates `p` and every missing ancestor; raises if `p`
      already exists (even as a dangling symlink) or an ancestor is not a
      directory. */
  function MakeDirs(fs: Tree, p: Path): (r: Result<Tree, Errno>)
    ensures r.Ok? <==> Lookup(fs, p).None? && AncestorsOpen(fs, p)
    ensures r.Ok? ==> IsRealDir(r.value, p)
    ensures r.Ok? ==> forall q :: q in fs ==> q in r.value && r.value[q] == fs[q]
    ensures r.Ok? ==> r.value.Keys == fs.Keys + Ancestors(p)
    ensures r.Ok? ==> forall q :: q in r.value && q !in fs ==> r.value[q] == Dir
  {
    if Lookup(fs, p).Some? then Err(EEXIST)
    else if !AncestorsOpen(fs, p) then Err(ENOTDIR)
    else Ok(AddDirs(fs, p))
  }

  /** `FileSystem.genSymlink(target, link)` (`os.symlink`): adds the link and
      nothing else; raises if `link` exists or its directory does not. */
  function GenSymlink(fs: Tree, target: string, link: Path): (r: Result<Tree, Errno>)
    ensures r.Ok? <==> Lookup(fs, link).None? && IsRealDir(fs, Paths.Parent(link))
    ensures r.Ok? ==> r.value.Keys == fs.Keys + {link}
    ensures r.Ok? ==> r.value[link] == Symlink(target)
    ensures r.Ok? ==> forall q :: q in fs ==> r.value[q] == fs[q]
  {
    if Lookup(fs, link).Some? then Err(EEXIST)
    else if Lookup(fs, Paths.Parent(link)).None? then Err(ENOENT)
    else if !IsRealDir(fs, Paths.Parent(link)) then Err(ENOTDIR)
    else Ok(fs[link := Symlink(target)])
  }

  /** The directory `p` leads to when `os.path.isdir(p)` holds: `p` itself, or
      the target of the symlink stored there. */
  function DirAt(fs: Tree, p: Path): Path
  {
    match Lookup(fs, p)
    case Some(Symlink(t)) => LinkTarget(p, t)
    case _ => p
  }

  /** Where `shutil.move(src, dst)` puts `src`: inside the directory `dst`
      leads to, under its own name, when `os.path.isdir(dst)` holds; at `dst`
      otherwise. */
  function MoveDestination(fs: Tree, src: Path, dst: Path): Path
  {
    if IsDir(fs, dst) && src != [] then DirAt(fs, dst) + [src[|src| - 1]] else dst
  }

  /** `q`, a path below `src`, re-rooted at `dst`. */
  function Rebase(q: Path, src: Path, dst: Path): Path
    requires src <= q
  {
    dst + q[|src|..]
  }

  lemma RebaseInjective(src: Path, dst: Path)
    ensures forall q1, q2 :: src <= q1 && src <= q2 && Rebase(q1, src, dst) == Rebase(q2, src, dst) ==> q1 == q2
  {
    forall q1, q2 | src <= q1 && src <= q2 && Rebase(q1, src, dst) == Rebase(q2, src, dst)
      ensures q1 == q2
    {
      assert q1[|src|..] == Rebase(q1, src, dst)[|dst|..];
      assert q2[|src|..] == Rebase(q2, src, dst)[|dst|..];
      assert q1 == src + q1[|src|..];
      assert q2 == src + q2[|src|..];
    }
  }

  /** `fs` with the subtree at `src` re-rooted at `dst`; whatever was at `dst`
      itself is replaced. */
  function Relocate(fs: Tree, src: Path, dst: Path): (r: Tree)
    ensures forall q :: q in fs && src <= q ==> Rebase(q, src, dst) in r && r[Rebase(q, src, dst)] == fs[q]
    ensures forall q :: !(src <= q) && !(dst <= q) ==> (q in r <==> q in fs) && (q in r ==> r[q] == fs[q])
    // nothing is left at the old place
    ensures forall q :: src <= q && !(dst <= q) ==> q !in r
  {
    RebaseInjective(src, dst);
    var moved := map q | q in fs && src <= q :: Rebase(q, src, dst) := fs[q];
    assert forall q :: q in fs && src <= q ==> Rebase(q, src, dst) in moved && moved[Rebase(q, src, dst)] == fs[q];
    (map q | q in fs && !(src <= q) && q != dst :: fs[q]) + moved
  }

  /** `FileSystem.mvFromTo` (`shutil.move`) as a rename: the subtree at `src`
      moves to `MoveDestination`; raises if `src` is missing, if the
      destination inside a directory already exists, if it lies inside `src`,
      or if its directory is missing. A non-directory may replace a
      non-directory; a directory is never replaced. */
  function Move(fs: Tree, src: Path, dst: Path): (r: Result<Tree, Errno>)
    // the cases in which `shutil.move` raises
    ensures r.Ok? <==>
      && src != [] && src in fs
      && (src != dst ==>
            var dest := MoveDestination(fs, src, dst);
            && !(IsDir(fs, dst) && Exists(fs, dest))
            && !(src <= dest)
            && IsRealDir(fs, Paths.Parent(dest))
            && !(dest in fs && (fs[src] == Dir || fs[dest] == Dir)))
    ensures r.Ok? && src == dst ==> r.value == fs
    // every entry below `src` reappears, unchanged, below the destination
    ensures r.Ok? && src != dst ==>
      var dest := MoveDestination(fs, src, dst);
      forall q :: q in fs && src <= q ==>
        Rebase(q, src, dest) in r.value && r.value[Rebase(q, src, dest)] == fs[q]
    // and nothing is left at the old place
    ensures r.Ok? && src != dst ==>
      var dest := MoveDestination(fs, src, dst);
      forall q :: src <= q && !(dest <= q) ==> q !in r.value
    // everything outside the source and the destination is untouched
    ensures r.Ok? && src != dst ==>
      var dest := MoveDestination(fs, src, dst);
      forall q :: !(src <= q) && !(dest <= q) ==>
        (q in r.value <==> q in fs) && (q in fs ==> r.value[q] == fs[q])
  {
    if src == [] then Err(EBUSY)
    else if src !in fs then Err(ENOENT)
    else if src == dst then Ok(fs)
    else
      var dest := MoveDestination(fs, src, dst);
      if IsDir(fs, dst) && Exists(fs, dest) then Err(EEXIST)
      else if src <= dest then Err(EINVAL)
      else if !IsRealDir(fs, Paths.Parent(dest)) then Err(ENOENT)
      else if dest in fs && (fs[src] == Dir || fs[dest] == Dir) then Err(EEXIST)
      else Ok(Relocate(fs, src, dest))
  }

  /** The names `os.listdir(dir)` returns. */
  function ListDir(fs: Tree, dir: Path): set<string>
  {
    set q | q in fs && |q| == |dir| + 1 && dir <= q :: q[|dir|]
  }

  lemma InListDir(fs: Tree, dir: Path, n: string)
    ensures n in ListDir(fs, dir) <==> dir + [n] in fs
  {
    if n in ListDir(fs, dir) {
      var q :| q in fs && |q| == |dir| + 1 && dir <= q && q[|dir|] == n;
      assert q == dir + [n];
    }
    if dir + [n] in fs {
      assert (dir + [n])[|dir|] == n;
    }
  }

  /** Whether the purge deletes the child `name` of `dir`. The source skips a
      symlink first, then an excepted name, then anything `isdir` rejects. */
  predicate Doomed(fs: Tree, dir: Path, excepted: seq<string>, name: string)
  {
    var p := dir + [name];
    !IsSymlink(fs, p) && name !in excepted && IsDir(fs, p)
  }

  /** Whether `q` lies in (or is) a child of `dir` that the purge deletes. */
  predicate Condemned(fs: Tree, dir: Path, excepted: seq<string>, q: Path)
  {
    |q| > |dir| && dir <= q && Doomed(fs, dir, excepted, q[|dir|])
  }

  /** A path `os.path.isdir` accepts leads to a directory proper. */
  lemma DirAtIsRealDir(fs: Tree, p: Path)
    requires IsDir(fs, p)
    ensures IsRealDir(fs, DirAt(fs, p))
    ensures !IsSymlink(fs, p) ==> DirAt(fs, p) == p
  {
  }

  /** `purgeOtherDirectoriesInDirectoryExcept(dir, excepted)`: every direct
      child of the directory `dir` leads to (following a symlink at `dir`, as
      `os.listdir` and the later checks do) that is a real directory and not
      excepted is deleted with its contents; listing a non-directory raises. */
  function Purge(fs: Tree, dir: Path, excepted: seq<string>): (r: Result<Tree, Errno>)
    ensures r.Ok? <==> IsDir(fs, dir)
    // symlinks, excepted names and non-directories among the children stay
    ensures r.Ok? ==> var d := DirAt(fs, dir);
      forall n :: d + [n] in fs && (IsSymlink(fs, d + [n]) || n in excepted || fs[d + [n]] != Dir)
        ==> d + [n] in r.value && r.value[d + [n]] == fs[d + [n]]
    // afterwards every child is a symlink, a non-directory or excepted
    ensures r.Ok? ==> var d := DirAt(fs, dir);
      forall n :: d + [n] in r.value ==> r.value[d + [n]] != Dir || n in excepted
    // an excepted child keeps everything below it
    ensures r.Ok? ==> var d := DirAt(fs, dir);
      forall q :: q in fs && d < q && q[|d|] in excepted ==> q in r.value
    // nothing outside that directory changes
    ensures r.Ok? ==> var d := DirAt(fs, dir);
      forall q :: !(d < q) ==> (q in r.value <==> q in fs)
    ensures r.Ok? ==> forall q :: q in r.value ==> q in fs && r.value[q] == fs[q]
  {
    if !IsDir(fs, dir) then Err(ENOTDIR)
    else
      var d := DirAt(fs, dir);
      DirAtIsRealDir(fs, dir);
      Ok(map q | q in fs && !Condemned(fs, d, excepted, q) :: fs[q])
  }

  /** What the purge loop leaves once it has visited the children named in
      `done`. */
  function PurgedSoFar(fs: Tree, dir: Path, excepted: seq<string>, done: set<string>): Tree
  {
    map q | q in fs && !(Condemned(fs, dir, excepted, q) && q[|dir|] in done) :: fs[q]
  }

  /** One turn of the purge loop: the loop's checks on the partly purged tree
      agree with `Doomed` on the original one, and deleting a doomed child
      (or skipping any other) extends the visited set by that child. */
  lemma PurgeVisit(fs: Tree, dir: Path, excepted: seq<string>, done: set<string>, item: string)
    requires item !in done
    ensures var cur := PurgedSoFar(fs, dir, excepted, done);
      var full := dir + [item];
      && (Doomed(fs, dir, excepted, item) <==> !IsSymlink(cur, full) && item !in excepted && IsDir(cur, full))
      && (Doomed(fs, dir, excepted, item) ==> RemoveDir(cur, full) == Ok(PurgedSoFar(fs, dir, excepted, done + {item})))
      && (!Doomed(fs, dir, excepted, item) ==> cur == PurgedSoFar(fs, dir, excepted, done + {item}))
  {
    var cur := PurgedSoFar(fs, dir, excepted, done);
    var next := PurgedSoFar(fs, dir, excepted, done + {item});
    var full := dir + [item];
    assert forall q :: full <= q ==> q[|dir|] == item;
    assert Lookup(cur, full) == Lookup(fs, full);
    if Doomed(fs, dir, excepted, item) {
      assert forall q :: q in next <==> q in cur && !(full <= q);
      assert Without(cur, full) == next;
    } else {
      assert forall q :: q in next <==> q in cur;
    }
  }

  /** The source's purge loop, visiting the children in whatever order
      `os.listdir` yields them and deleting each one it does not skip, has
      the effect of `Purge`. The checks on `dir/<item>` go through a symlink
      at `dir`, so they land on the child of the directory it leads to. */
  method PurgeOtherDirectoriesInDirectoryExcept(fs: Tree, dir: Path, excepted: seq<string>)
    returns (r: Result<Tree, Errno>)
    ensures r == Purge(fs, dir, excepted)
  {
    if !IsDir(fs, dir) {
      return Err(ENOTDIR);
    }
    var d := DirAt(fs, dir);
    var items := ListDir(fs, d);
    ghost var done: set<string> := {};
    var cur := fs;
    assert cur == PurgedSoFar(fs, d, excepted, done);
    while items != {}
      invariant items !! done
      invariant items + done == ListDir(fs, d)
      invariant cur == PurgedSoFar(fs, d, excepted, done)
      decreases items
    {
      var item :| item in items;
      var full := d + [item];
      PurgeVisit(fs, d, excepted, done, item);
      if IsSymlink(cur, full) {
      } else if item in excepted {
      } else if !IsDir(cur, full) {
      } else {
        var rm := RemoveDir(cur, full);
        cur := rm.value;
      }
      items := items - {item};
      done := done + {item};
    }
    forall q | q in fs && Condemned(fs, d, excepted, q)
      ensures q[|d|] in done
    {
      assert q[..|d| + 1] == d + [q[|d|]];
      InListDir(fs, d, q[|d|]);
    }
    assert cur == Purge(fs, dir, excepted).value;
    r := Ok(cur);
  }

  /** `FileSystem.tempDirFor(name)`: the path text of the scratch directory for
      `name` under the system temp directory `tmpRoot`. */
  function TempDirPath(tmpRoot: string, name: string): string
  {
    tmpRoot + "/deploy_coord/" + name + "/"
  }

  /** `FileSystem.tempDirFor(name)`: returns the scratch directory's path text,
      creating the directory (and its ancestors) only when it does not exist. */
  function TempDirFor(fs: Tree, cwd: Path, tmpRoot: string, name: string): (r: Result<(Tree, string), Errno>)
    ensures r.Ok? ==> r.value.1 == tmpRoot + "/deploy_coord/" + name + "/"
    ensures r.Ok? ==> IsDir(r.value.0, Paths.Resolve(cwd, r.value.1))
    ensures IsDir(fs, Paths.Resolve(cwd, TempDirPath(tmpRoot, name))) ==> r == Ok((fs, TempDirPath(tmpRoot, name)))
    // a file at the path makes `os.makedirs` raise
    ensures Lookup(fs, Paths.Resolve(cwd, TempDirPath(tmpRoot, name))) == Some(File) ==> r.Err?
    // it only adds directories
    ensures r.Ok? ==> forall q :: q in fs ==> q in r.value.0 && r.value.0[q] == fs[q]
    ensures r.Ok? ==> forall q :: q in r.value.0 && q !in fs ==> r.value.0[q] == Dir
  {
    var full := TempDirPath(tmpRoot, name);
    var p := Paths.Resolve(cwd, full);
    if ExistsText(fs, cwd, full) then Ok((fs, full))
    else
      match MakeDirs(fs, p)
      case Ok(fs') => Ok((fs', full))
      case Err(e) => Err(e)
  }

  /** Writes a checked-out `tree` (paths relative to `dir`) into `dir`,
      overwriting what is there, as `git checkout -f` does. */
  function Overlay(fs: Tree, dir: Path, tree: Tree): (r: Tree)
    ensures forall q :: q in tree ==> dir + q in r && r[dir + q] == tree[q]
    ensures forall q :: !(dir <= q) ==> (q in r <==> q in fs) && (q in r ==> r[q] == fs[q])
    ensures forall q :: q in r ==> (q in fs && r[q] == fs[q]) || (dir <= q && q[|dir|..] in tree)
  {
    RebaseInjective([], dir);
    fs + (map q | q in tree :: Rebase(q, [], dir) := tree[q])
  }

  // ---------------------------------------------------------------------
  // Properties of the operations.

  /** `tempDirFor` is idempotent: a second call finds the directory the
      first one made and changes nothing. */
  lemma TempDirForIdempotent(fs: Tree, cwd: Path, tmpRoot: string, name: string)
    requires TempDirFor(fs, cwd, tmpRoot, name).Ok?
    ensures var (fs1, path) := TempDirFor(fs, cwd, tmpRoot, name).value;
      TempDirFor(fs1, cwd, tmpRoot, name) == Ok((fs1, path))
  {
  }

  /** A directory path text `t/n1/n2/` with two names leads two levels below
      `t`. */
  lemma ResolveTwoLevels(cwd: Path, t: string, n1: string, n2: string)
    requires |t| > 0
    requires Paths.IsName(n1) && Paths.IsName(n2)
    ensures Paths.Resolve(cwd, t + "/" + n1 + "/" + n2 + "/") == Paths.Resolve(cwd, t) + [n1, n2]
  {
    var a := t + "/" + n1;
    var b := a + "/" + n2;
    var c := b + "/" + "";
    assert t + "/" + n1 + "/" + n2 + "/" == c;
    Strings.SplitWithoutSeparator(n1, '/');
    Strings.SplitWithoutSeparator(n2, '/');
    assert Strings.Split("", '/') == [""];
    Paths.ResolveAppendComponent(cwd, t, n1);
    Paths.ResolveAppendComponent(cwd, a, n2);
    Paths.ResolveAppendComponent(cwd, b, "");
    assert Paths.Normalize(Paths.Resolve(cwd, b), [""]) == Paths.Resolve(cwd, b);
  }

  /** The scratch directory is the directory `deploy_coord/<name>` of the
      system temp directory. */
  lemma TempDirResolves(cwd: Path, tmpRoot: string, name: string)
    requires |tmpRoot| > 0
    requires Paths.IsName(name)
    ensures Paths.Resolve(cwd, TempDirPath(tmpRoot, name)) == Paths.Resolve(cwd, tmpRoot) + ["deploy_coord", name]
  {
    assert TempDirPath(tmpRoot, name) == tmpRoot + "/" + "deploy_coord" + "/" + name + "/";
    ResolveTwoLevels(cwd, tmpRoot, "deploy_coord", name);
  }

  /** Adding entries never makes an existing path vanish. */
  lemma ExistsTextGrows(fs: Tree, fs': Tree, cwd: Path, s: string)
    requires forall q :: q in fs ==> q in fs' && fs'[q] == fs[q]
    requires ExistsText(fs, cwd, s)
    ensures ExistsText(fs', cwd, s)
  {
    var p := Paths.Resolve(cwd, s);
    assert Lookup(fs', p) == Lookup(fs, p);
    match Lookup(fs, p)
    case Some(Symlink(t)) =>
      assert Lookup(fs', LinkTarget(p, t)) == Lookup(fs, LinkTarget(p, t));
    case _ =>
  }

  /** In a well-formed tree every proper non-root prefix of an entry is a
      directory entry. */
  lemma {:induction false} WellFormedAncestor(fs: Tree, q: Path, a: Path)
    requires WellFormed(fs)
    requires q in fs && a != [] && a < q
    ensures a in fs && fs[a] == Dir
    decreases |q|
  {
    var up := Paths.Parent(q);
    assert IsRealDir(fs, up);
    assert a <= up;
    if a != up {
      WellFormedAncestor(fs, up, a);
    }
  }

  lemma RemoveDirKeepsWellFormed(fs: Tree, p: Path)
    requires WellFormed(fs)
    requires p != [] && p in fs && fs[p] == Dir
    ensures WellFormed(RemoveDir(fs, p).value)
  {
    var r := RemoveDir(fs, p).value;
    forall q | q in r
      ensures IsRealDir(r, Paths.Parent(q))
    {
      var up := Paths.Parent(q);
      assert up <= q;
    }
  }

  lemma RemoveKeepsWellFormed(fs: Tree, p: Path)
    requires WellFormed(fs)
    requires Remove(fs, p).Ok?
    ensures WellFormed(Remove(fs, p).value)
  {
  }

  lemma MakeDirsKeepsWellFormed(fs: Tree, p: Path)
    requires WellFormed(fs)
    requires MakeDirs(fs, p).Ok?
    ensures WellFormed(MakeDirs(fs, p).value)
  {
    var r := MakeDirs(fs, p).value;
    forall q | q in r
      ensures IsRealDir(r, Paths.Parent(q))
    {
      if q !in fs {
        assert q in Ancestors(p);
        var i :| 0 < i <= |p| && q == p[..i];
        var up := Paths.Parent(q);
        if up != [] {
          assert up == p[..i - 1] && 0 < i - 1 < |p|;
          assert up in Ancestors(p);
        }
      }
    }
  }

  lemma GenSymlinkKeepsWellFormed(fs: Tree, target: string, link: Path)
    requires WellFormed(fs)
    requires GenSymlink(fs, target, link).Ok?
    ensures WellFormed(GenSymlink(fs, target, link).value)
  {
  }

  /** Every entry after a relocation was either left in place or moved from
      below `src`. */
  lemma RelocateOrigin(fs: Tree, src: Path, dst: Path, q: Path)
    requires q in Relocate(fs, src, dst)
    ensures || (q in fs && !(src <= q) && q != dst)
            || (dst <= q && src + q[|dst|..] in fs)
  {
    var moved := map o | o in fs && src <= o :: Rebase(o, src, dst) := fs[o];
    if q in moved {
      var o :| o in fs && src <= o && Rebase(o, src, dst) == q;
      assert src + q[|dst|..] == o;
    }
  }

  /** An entry the relocation left in place still lies in a directory. */
  lemma RelocateKeptInDir(fs: Tree, src: Path, dest: Path, q: Path)
    requires WellFormed(fs)
    requires src != [] && dest != []
    requires !(dest in fs && fs[dest] == Dir)
    requires q in fs && !(src <= q) && q != dest
    ensures IsRealDir(Relocate(fs, src, dest), Paths.Parent(q))
  {
    var up := Paths.Parent(q);
    if dest <= q {
      WellFormedAncestor(fs, q, dest);
      assert false;
    }
    assert !(src <= up) && !(dest <= up);
  }

  /** An entry the relocation moved lies in a directory it moved too, or, for
      `dest` itself, in the directory that already held `dest`. */
  lemma RelocateMovedInDir(fs: Tree, src: Path, dest: Path, q: Path)
    requires WellFormed(fs)
    requires src != [] && dest != [] && !(src <= dest)
    requires IsRealDir(fs, Paths.Parent(dest))
    requires dest <= q && src + q[|dest|..] in fs
    ensures IsRealDir(Relocate(fs, src, dest), Paths.Parent(q))
  {
    var up := Paths.Parent(q);
    var o := src + q[|dest|..];
    assert Rebase(o, src, dest) == q;
    if o == src {
      assert q == dest;
      assert !(src <= up) && !(dest <= up);
    } else {
      var oUp := Paths.Parent(o);
      assert src <= oUp;
      assert oUp in fs && fs[oUp] == Dir;
      assert Rebase(oUp, src, dest) == up;
    }
  }

  /** The directory holding a relocated entry exists afterwards. */
  lemma RelocateEntryInDir(fs: Tree, src: Path, dest: Path, q: Path)
    requires WellFormed(fs)
    requires src != [] && dest != [] && !(src <= dest)
    requires IsRealDir(fs, Paths.Parent(dest))
    requires !(dest in fs && fs[dest] == Dir)
    requires q in Relocate(fs, src, dest)
    ensures q != [] && IsRealDir(Relocate(fs, src, dest), Paths.Parent(q))
  {
    RelocateOrigin(fs, src, dest, q);
    if q in fs && !(src <= q) && q != dest {
      RelocateKeptInDir(fs, src, dest, q);
    } else {
      RelocateMovedInDir(fs, src, dest, q);
    }
  }

  /** Re-rooting a subtree under an existing directory, at a place that is
      not itself a directory, keeps every entry inside a directory. */
  lemma RelocateKeepsWellFormed(fs: Tree, src: Path, dest: Path)
    requires WellFormed(fs)
    requires src != [] && dest != [] && !(src <= dest)
    requires IsRealDir(fs, Paths.Parent(dest))
    requires !(dest in fs && fs[dest] == Dir)
    ensures WellFormed(Relocate(fs, src, dest))
  {
    forall q | q in Relocate(fs, src, dest)
      ensures q != [] && IsRealDir(Relocate(fs, src, dest), Paths.Parent(q))
    {
      RelocateEntryInDir(fs, src, dest, q);
    }
  }

  /** `after` is `before` with the subtree at `src` re-rooted at `dest`:
      every entry below `src` reappears below `dest`, nothing is left at the
      old place, and everything outside both is untouched. */
  ghost predicate MovedTo(before: Tree, after: Tree, src: Path, dest: Path)
  {
    && (forall q :: q in before && src <= q ==> Rebase(q, src, dest) in after && after[Rebase(q, src, dest)] == before[q])
    && (forall q :: src <= q && !(dest <= q) ==> q !in after)
    && (forall q :: !(src <= q) && !(dest <= q) ==> (q in after <==> q in before) && (q in before ==> after[q] == before[q]))
  }

  /** Moving into a real directory other than the source itself: the subtree
      lands under the source's own last name, nothing is left behind, and
      nothing else changes. */
  lemma MoveIntoDir(fs: Tree, src: Path, dir: Path)
    requires Move(fs, src, dir).Ok? && IsRealDir(fs, dir) && src != dir
    ensures src != [] && src in fs
    ensures MovedTo(fs, Move(fs, src, dir).value, src, dir + [src[|src| - 1]])
  {
    assert DirAt(fs, dir) == dir;
    assert MoveDestination(fs, src, dir) == dir + [src[|src| - 1]];
    MoveMovesTo(fs, src, dir);
  }

  /** A directory cannot be moved onto a file: `os.rename` refuses, and the
      copy fallback finds the file already there. */
  lemma MoveOntoFileFails(fs: Tree, src: Path, dst: Path)
    requires IsRealDir(fs, src) && Lookup(fs, dst) == Some(File)
    ensures Move(fs, src, dst).Err?
  {
    assert src != dst;
    assert !IsDir(fs, dst);
    assert MoveDestination(fs, src, dst) == dst;
  }

  /** A successful move is a `MovedTo` its destination. */
  lemma MoveMovesTo(fs: Tree, src: Path, dst: Path)
    requires Move(fs, src, dst).Ok? && src != dst
    ensures MovedTo(fs, Move(fs, src, dst).value, src, MoveDestination(fs, src, dst))
  {
  }

  /** A move into a real directory leaves that directory in place. */
  lemma MoveKeepsDestDir(fs: Tree, src: Path, dir: Path)
    requires Move(fs, src, dir).Ok? && IsRealDir(fs, dir)
    ensures IsRealDir(Move(fs, src, dir).value, dir)
  {
    if src != dir && dir != [] {
      var dest := MoveDestination(fs, src, dir);
      assert DirAt(fs, dir) == dir;
      assert dest == dir + [src[|src| - 1]];
      assert !(src <= dir);
    }
  }

  /** A successful move keeps every entry inside a directory. */
  lemma MoveKeepsWellFormed(fs: Tree, src: Path, dst: Path)
    requires WellFormed(fs)
    requires Move(fs, src, dst).Ok?
    ensures WellFormed(Move(fs, src, dst).value)
  {
    if src != dst {
      var dest := MoveDestination(fs, src, dst);
      assert dest != [];
      RelocateKeepsWellFormed(fs, src, dest);
    }
  }

  /** Everything below a deleted child is deleted too. */
  lemma CondemnedReachesBelow(fs: Tree, dir: Path, excepted: seq<string>, up: Path, q: Path)
    requires up <= q
    ensures Condemned(fs, dir, excepted, up) ==> Condemned(fs, dir, excepted, q)
  {
    if |up| > |dir| {
      assert q[|dir|] == up[|dir|];
    }
  }

  lemma PurgeKeepsWellFormed(fs: Tree, dir: Path, excepted: seq<string>)
    requires WellFormed(fs)
    requires Purge(fs, dir, excepted).Ok?
    ensures WellFormed(Purge(fs, dir, excepted).value)
  {
    var r := Purge(fs, dir, excepted).value;
    var d := DirAt(fs, dir);
    forall q | q in r
      ensures IsRealDir(r, Paths.Parent(q))
    {
      var up := Paths.Parent(q);
      assert up <= q;
      CondemnedReachesBelow(fs, d, excepted, up, q);
    }
  }

  /** A second purge with the same exceptions deletes nothing more, as long as
      a symlink at `dir` does not lead to a directory holding it (the first
      purge could delete the link itself). */
  lemma PurgeIdempotent(fs: Tree, dir: Path, excepted: seq<string>)
    requires Purge(fs, dir, excepted).Ok?
    requires !(DirAt(fs, dir) < dir)
    ensures Purge(Purge(fs, dir, excepted).value, dir, excepted) == Purge(fs, dir, excepted)
  {
    var r := Purge(fs, dir, excepted).value;
    var d := DirAt(fs, dir);
    DirAtIsRealDir(fs, dir);
    assert Lookup(r, dir) == Lookup(fs, dir);
    assert DirAt(r, dir) == d;
    assert IsRealDir(r, d);
    assert IsDir(r, dir);
    var r2 := Purge(r, dir, excepted).value;
    forall q | q in r
      ensures !Condemned(r, d, excepted, q)
    {
      if |q| > |d| && d <= q {
        var n := q[|d|];
        var child := d + [n];
        assert child in r ==> r[child] != Dir || n in excepted;
      }
    }
    assert r2 == r;
  }
}

=== FILE: json.dfy ===
/** A decoded JSON document, as `json.load` hands it to the hooks: objects
    become dictionaries keyed by string, arrays become lists. */
module Json {
  import opened Results

  datatype Value =
    | Null
    | Bool(b: bool)
    | Num(n: real)
    | Str(s: string)
    | Arr(items: seq<Value>)
    | Obj(fields: map<string, Value>)

  /** `d.get(k, None)`. JSON `null` decodes to Python's `None`, so a key
      bound to `null` reads exactly like a missing key. */
  function Get(d: map<string, Value>, k: string): (r: Option<Value>)
    ensures r.None? <==> k !in d || d[k] == Null
    ensures r.Some? ==> r.value == d[k] && r.value != Null
  {
    if k in d && d[k] != Null then Some(d[k]) else None
  }

  /** Every character is ASCII. Python 2 decodes every JSON string to
      `unicode`, and `str()` of one, which the hooks' messages apply, encodes it
      with the ASCII codec: it raises `UnicodeEncodeError` unless this holds. */
  predicate IsAscii(s: string)
  {
    forall i :: 0 <= i < |s| ==> s[i] as int < 128
  }

  /** `str(v)` succeeds. Only a string can fail: any other value prints
      through `repr`, which escapes non-ASCII characters. */
  predicate Printable(v: Value)
  {
    v.Str? ==> IsAscii(v.s)
  }
}

=== FILE: parse_json.dfy ===
/** `ParseJson.key`: lookup of a dotted key such as `project.name` in the
    parsed build file. */
module ParseJson {
  import opened Results
  import opened Json
  import Strings

  /** What `key` gives back: a value, Python's `None` (`Miss`), or the
      `AttributeError` raised when the document root is not an object and
      so has no `.get`. */
  datatype KeyResult = Hit(value: Value) | Miss | NotADict

  function FromOption(o: Option<Value>): KeyResult
  {
    match o
    case Some(v) => Hit(v)
    case None => Miss
  }

  /** One turn of the lookup loop: the cursor moves into the segment's value
      only when that value is itself an object. */
  function Step(cursor: map<string, Value>, k: string): map<string, Value>
  {
    if k in cursor && cursor[k].Obj? then cursor[k].fields else cursor
  }

  /** The lookup loop run over every segment, the last one included. */
  function Walk(cursor: map<string, Value>, keys: seq<string>): map<string, Value>
    decreases |keys|
  {
    if |keys| == 0 then cursor else Walk(Step(cursor, keys[0]), keys[1..])
  }

  /** The lookup on an already split key. */
  function KeyPath(data: Value, keys: seq<string>): (r: KeyResult)
    requires |keys| >= 1
    ensures r.NotADict? <==> !data.Obj?
    ensures r.Hit? ==> r.value != Null
  {
    if !data.Obj? then NotADict
    else if |keys| == 1 then FromOption(Get(data.fields, keys[0]))
    else FromOption(Get(Walk(data.fields, keys), keys[|keys| - 1]))
  }

  /** `ParseJson.key(key)`: split on `.`, then look up. It never raises on an
      absent key; it raises only when the document root is not an object. */
  function Key(data: Value, key: string): (r: KeyResult)
    ensures r.NotADict? <==> !data.Obj?
    ensures r.Hit? ==> r.value != Null
  {
    KeyPath(data, Strings.Split(key, '.'))
  }

  // ---------------------------------------------------------------------
  // A conventional, strict lookup, used as the reference the source's walk
  // is compared against.

  /** The object reached by descending through `keys`, each of which must name
      an object; `None` as soon as one does not. */
  function StrictCursor(d: map<string, Value>, keys: seq<string>): Option<map<string, Value>>
    decreases |keys|
  {
    if |keys| == 0 then Some(d)
    else if keys[0] in d && d[keys[0]].Obj? then StrictCursor(d[keys[0]].fields, keys[1..])
    else None
  }

  /** Strict dotted lookup: every segment but the last names an object, and the
      last one names the value. */
  function StrictLookup(d: map<string, Value>, keys: seq<string>): Option<Value>
    requires |keys| >= 1
  {
    match StrictCursor(d, keys[..|keys| - 1])
    case Some(o) => Get(o, keys[|keys| - 1])
    case None => None
  }

  lemma {:induction false} WalkAppend(d: map<string, Value>, keys: seq<string>, k: string)
    ensures Walk(d, keys + [k]) == Step(Walk(d, keys), k)
    decreases |keys|
  {
    if |keys| == 0 {
      assert keys + [k] == [k];
    } else {
      assert (keys + [k])[1..] == keys[1..] + [k];
      WalkAppend(Step(d, keys[0]), keys[1..], k);
    }
  }

  /** Along a path of objects the walk and the strict descent agree. */
  lemma {:induction false} WalkFollowsObjects(d: map<string, Value>, keys: seq<string>)
    requires StrictCursor(d, keys).Some?
    ensures Walk(d, keys) == StrictCursor(d, keys).value
    decreases |keys|
  {
    if |keys| > 0 {
      WalkFollowsObjects(d[keys[0]].fields, keys[1..]);
    }
  }

  /** The walk over a whole strict path: it reaches the strict cursor of all
      but the last segment, then takes one more step. */
  lemma WalkLandsOnFinalCursor(fields: map<string, Value>, keys: seq<string>)
    requires |keys| >= 1
    requires StrictCursor(fields, keys[..|keys| - 1]).Some?
    ensures Walk(fields, keys) == Step(StrictCursor(fields, keys[..|keys| - 1]).value, keys[|keys| - 1])
  {
    var init := keys[..|keys| - 1];
    var last := keys[|keys| - 1];
    assert keys == init + [last];
    WalkAppend(fields, init, last);
    WalkFollowsObjects(fields, init);
  }

  /** A key without a dot is a plain top-level `get`: the entry, or `None` when
      it is absent. */
  lemma KeySingleSegment(fields: map<string, Value>, k: string)
    requires '.' !in k
    ensures Key(Obj(fields), k) == FromOption(Get(fields, k))
    ensures k !in fields ==> Key(Obj(fields), k) == Miss
  {
    Strings.SplitWithoutSeparator(k, '.');
  }

  /** When every intermediate segment names an object and the last one names a
      non-object value, the lookup returns exactly that value, as a strict
      lookup would. */
  lemma KeyAgreesWithStrictLookup(fields: map<string, Value>, keys: seq<string>)
    requires |keys| >= 2
    requires forall i :: 0 <= i < |keys| ==> '.' !in keys[i]
    requires StrictLookup(fields, keys).Some?
    requires !StrictLookup(fields, keys).value.Obj?
    ensures Key(Obj(fields), Strings.Join(keys, '.')) == Hit(StrictLookup(fields, keys).value)
  {
    var init := keys[..|keys| - 1];
    var last := keys[|keys| - 1];
    var o := StrictCursor(fields, init).value;
    WalkLandsOnFinalCursor(fields, keys);
    assert Step(o, last) == o;
    Strings.JoinThenSplit(keys, '.');
  }

  /** The lookup of `project.name`, as the pre-receive gate does it. */
  lemma ProjectNameLookup(name: string)
    ensures Key(Obj(map["project" := Obj(map["name" := Str(name)])]), "project.name") == Hit(Str(name))
  {
    var inner := map["name" := Str(name)];
    var doc := map["project" := Obj(inner)];
    var keys := ["project", "name"];
    assert keys[..1] == ["project"] && ["project"][1..] == [];
    assert StrictCursor(doc, ["project"]) == StrictCursor(inner, []) == Some(inner);
    assert StrictLookup(doc, keys) == Some(Str(name));
    assert Strings.Join(keys, '.') == "project.name";
    KeyAgreesWithStrictLookup(doc, keys);
  }

  /** Fallback quirk: when the first segment is absent at the top level (or is
      not an object) the cursor stays at the root, so `a.b` reads the top-level
      `b`. */
  lemma KeyFallsBackToRoot(fields: map<string, Value>, a: string, b: string)
    requires '.' !in a && '.' !in b
    requires a !in fields || !fields[a].Obj?
    requires b !in fields || !fields[b].Obj?
    ensures Key(Obj(fields), a + "." + b) == FromOption(Get(fields, b))
  {
    Strings.SplitWithoutSeparator(a, '.');
    Strings.SplitWithoutSeparator(b, '.');
    Strings.SplitAround(a, '.', b);
    assert a + "." + b == a + ['.'] + b;
    assert [a, b][1..] == [b];
    assert Step(fields, a) == fields;
    assert Walk(fields, [a, b]) == Walk(fields, [b]);
    assert Walk(fields, [b]) == Walk(Step(fields, b), []);
  }

  /** Quirk on the last segment: when the strict path ends at an object, the
      walk descends into it once more and returns that object's entry named
      after the same last segment. */
  lemma KeyDescendsIntoFinalObject(fields: map<string, Value>, keys: seq<string>)
    requires |keys| >= 2
    requires forall i :: 0 <= i < |keys| ==> '.' !in keys[i]
    requires StrictLookup(fields, keys).Some?
    requires StrictLookup(fields, keys).value.Obj?
    ensures var o := StrictLookup(fields, keys).value;
      Key(Obj(fields), Strings.Join(keys, '.')) == FromOption(Get(o.fields, keys[|keys| - 1]))
  {
    var init := keys[..|keys| - 1];
    var last := keys[|keys| - 1];
    var c := StrictCursor(fields, init).value;
    WalkLandsOnFinalCursor(fields, keys);
    assert Step(c, last) == c[last].fields;
    Strings.JoinThenSplit(keys, '.');
  }

  /** A concrete instance of the last-segment quirk: `project.name` on a
      document whose `name` is an object yields `None`. */
  lemma KeyFinalObjectExample()
    ensures Key(Obj(map["project" := Obj(map["name" := Obj(map["first" := Str("X")])])]), "project.name") == Miss
  {
    var name := Obj(map["first" := Str("X")]);
    var inner := map["name" := name];
    var doc := map["project" := Obj(inner)];
    var keys := ["project", "name"];
    assert keys[..1] == ["project"] && ["project"][1..] == [];
    assert StrictCursor(doc, ["project"]) == StrictCursor(inner, []) == Some(inner);
    assert StrictLookup(doc, keys) == Some(name);
    assert Strings.Join(keys, '.') == "project.name";
    KeyDescendsIntoFinalObject(doc, keys);
    assert "name" !in name.fields;
  }
}

=== FILE: paths.dfy ===
/** POSIX path strings as the hooks build them with `os.path.join`, and their
    resolution to a list of directory names, as `os.path.abspath` (and the
    kernel) resolves them. */
module Paths {
  import Strings

  /** A resolved absolute path: the names from the root down. */
  type Path = seq<string>

  predicate IsAbsolute(s: string)
  {
    |s| > 0 && s[0] == '/'
  }

  /** A name that can stand as one path component. */
  predicate IsName(s: string)
  {
    s != "" && s != "." && s != ".." && '/' !in s
  }

  /** Every component is a proper name: what `os.path.abspath` returns. */
  predicate AllNames(p: Path)
  {
    forall i :: 0 <= i < |p| ==> IsName(p[i])
  }

  /** `os.path.join(a, b)`: an absolute `b` replaces `a`; otherwise a separator
      is inserted unless `a` is empty or already ends in one. */
  function Join(a: string, b: string): string
  {
    if IsAbsolute(b) then b
    else if |a| == 0 || a[|a| - 1] == '/' then a + b
    else a + "/" + b
  }

  /** What `Join` keeps of its parts: an absolute `b` alone, otherwise `a`
      followed by at most one separator and then `b`. */
  lemma JoinParts(a: string, b: string)
    ensures var r := Join(a, b);
      && (IsAbsolute(b) ==> r == b)
      && (!IsAbsolute(b) ==> a <= r && |b| <= |r| && r[|r| - |b|..] == b && |r| <= |a| + 1 + |b|)
      // the joined path is absolute exactly when one of its parts is
      && (IsAbsolute(r) <==> IsAbsolute(a) || IsAbsolute(b))
  {
    var r := Join(a, b);
    if !IsAbsolute(b) {
      if |a| == 0 || a[|a| - 1] == '/' {
        assert r == a + b;
        assert r[|r| - |b|..] == b;
      } else {
        assert r == a + "/" + b;
        assert r[|r| - |b|..] == b;
      }
    }
  }

  /** Applies the components of a path to `base`: empty and `.` components are
      skipped, `..` drops the last name (and stays at the root there). */
  function Normalize(base: Path, comps: seq<string>): Path
    decreases |comps|
  {
    if |comps| == 0 then base
    else
      var c := comps[0];
      var next :=
        if c == "" || c == "." then base
        else if c == ".." then (if |base| == 0 then base else base[..|base| - 1])
        else base + [c];
      Normalize(next, comps[1..])
  }

  /** `os.path.abspath(s)` with working directory `cwd`. */
  function Resolve(cwd: Path, s: string): Path
  {
    Normalize(if IsAbsolute(s) then [] else cwd, Strings.Split(s, '/'))
  }

  /** Separator-free components applied to a normalised base give a
      normalised path. */
  lemma {:induction false} NormalizeNames(base: Path, comps: seq<string>)
    requires AllNames(base)
    requires forall i :: 0 <= i < |comps| ==> '/' !in comps[i]
    ensures AllNames(Normalize(base, comps))
    decreases |comps|
  {
    if |comps| > 0 {
      var c := comps[0];
      var next :=
        if c == "" || c == "." then base
        else if c == ".." then (if |base| == 0 then base else base[..|base| - 1])
        else base + [c];
      assert AllNames(next) by {
        if c != "" && c != "." && c != ".." {
          assert IsName(c);
          assert forall i :: 0 <= i < |base| ==> next[i] == base[i];
        }
      }
      NormalizeNames(next, comps[1..]);
    }
  }

  /** `os.path.abspath` always gives names only: from an absolute string, or
      from a relative one read in a normalised working directory. */
  lemma ResolveNames(cwd: Path, s: string)
    requires AllNames(cwd) || IsAbsolute(s)
    ensures AllNames(Resolve(cwd, s))
  {
    NormalizeNames(if IsAbsolute(s) then [] else cwd, Strings.Split(s, '/'));
  }

  /** The directory a path lies in; the root is its own parent. */
  function Parent(p: Path): Path
  {
    if |p| == 0 then p else p[..|p| - 1]
  }

  lemma {:induction false} NormalizeAppend(base: Path, x: seq<string>, y: seq<string>)
    ensures Normalize(base, x + y) == Normalize(Normalize(base, x), y)
    decreases |x|
  {
    if |x| == 0 {
      assert x + y == y;
    } else {
      assert (x + y)[0] == x[0];
      assert (x + y)[1..] == x[1..] + y;
      var c := x[0];
      var next :=
        if c == "" || c == "." then base
        else if c == ".." then (if |base| == 0 then base else base[..|base| - 1])
        else base + [c];
      NormalizeAppend(next, x[1..], y);
    }
  }

  /** Resolving `a + "/" + c` resolves `a`, then applies the components of `c`. */
  lemma ResolveAppendComponent(cwd: Path, a: string, c: string)
    requires |a| > 0
    ensures Resolve(cwd, a + "/" + c) == Normalize(Resolve(cwd, a), Strings.Split(c, '/'))
  {
    assert a + "/" + c == a + ['/'] + c;
    Strings.SplitAround(a, '/', c);
    assert IsAbsolute(a + "/" + c) == IsAbsolute(a);
    NormalizeAppend(if IsAbsolute(a) then [] else cwd, Strings.Split(a, '/'), Strings.Split(c, '/'));
  }

  /** `os.path.join(a, b)` leads where `b` leads when read in the directory
      `a` leads to. */
  lemma JoinResolves(cwd: Path, a: string, b: string)
    ensures Resolve(cwd, Join(a, b)) == Resolve(Resolve(cwd, a), b)
  {
    if IsAbsolute(b) {
      assert Join(a, b) == b;
    } else if |a| == 0 {
      assert Join(a, b) == a + b == b;
      assert Strings.Split(a, '/') == [""];
      assert Resolve(cwd, a) == Normalize(Normalize(cwd, []), [""]) == cwd;
    } else if a[|a| - 1] == '/' {
      var a' := a[..|a| - 1];
      assert a == a' + ['/'] + "";
      assert a + b == a' + ['/'] + b;
      Strings.SplitAround(a', '/', "");
      Strings.SplitAround(a', '/', b);
      assert Strings.Split("", '/') == [""];
      var base := if IsAbsolute(a) then [] else cwd;
      assert IsAbsolute(a + b) == IsAbsolute(a);
      NormalizeAppend(base, Strings.Split(a', '/'), [""]);
      NormalizeAppend(base, Strings.Split(a', '/'), Strings.Split(b, '/'));
      assert Normalize(Normalize(base, Strings.Split(a', '/')), [""])
          == Normalize(base, Strings.Split(a', '/'));
    } else {
      ResolveAppendComponent(cwd, a, b);
    }
  }

  /** Joining a name onto a path string descends by exactly that name. */
  lemma ResolveJoinName(cwd: Path, a: string, n: string)
    requires IsName(n)
    ensures Resolve(cwd, Join(a, n)) == Resolve(cwd, a) + [n]
  {
    Strings.SplitWithoutSeparator(n, '/');
    assert Normalize(Resolve(cwd, a), [n]) == Resolve(cwd, a) + [n];
    if |a| == 0 {
      assert Join(a, n) == n;
      assert !IsAbsolute(n);
      assert Strings.Split(a, '/') == [""];
      assert Normalize(cwd, [""]) == Normalize(cwd, []);
    } else if a[|a| - 1] == '/' {
      var a' := a[..|a| - 1];
      assert a == a' + ['/'] + "";
      assert a + n == a' + ['/'] + n;
      Strings.SplitAround(a', '/', "");
      Strings.SplitAround(a', '/', n);
      var base := if IsAbsolute(a) then [] else cwd;
      assert IsAbsolute(a + n) == IsAbsolute(a);
      NormalizeAppend(base, Strings.Split(a', '/'), [""]);
      NormalizeAppend(base, Strings.Split(a', '/'), [n]);
      assert Normalize(Normalize(base, Strings.Split(a', '/')), [""])
          == Normalize(base, Strings.Split(a', '/'));
    } else {
      ResolveAppendComponent(cwd, a, n);
    }
  }

  /** A relative path text `a/n` made of two names leads two levels below the
      directory it is read in. */
  lemma ResolveTwoNames(cwd: Path, a: string, n: string)
    requires IsName(a) && IsName(n)
    ensures Resolve(cwd, a + "/" + n) == cwd + [a, n]
  {
    Strings.SplitWithoutSeparator(a, '/');
    Strings.SplitWithoutSeparator(n, '/');
    assert Normalize(cwd, [a]) == cwd + [a];
    ResolveAppendComponent(cwd, a, n);
    assert Normalize(cwd + [a], [n]) == cwd + [a, n];
  }

  /** A trailing separator (`os.path.join(a, '')`) does not change where a path
      leads, and the result is empty or ends in a separator. */
  lemma JoinEmptyKeepsTarget(cwd: Path, a: string)
    ensures Resolve(cwd, Join(a, "")) == Resolve(cwd, a)
    ensures Join(a, "") == "" || Join(a, "")[|Join(a, "")| - 1] == '/'
  {
    if |a| > 0 && a[|a| - 1] != '/' {
      ResolveAppendComponent(cwd, a, "");
      assert Normalize(Resolve(cwd, a), [""]) == Resolve(cwd, a);
    } else {
      assert Join(a, "") == a + "" == a;
    }
  }

  /** A relative path string with no `..` component: it can only lead below
      the directory it is resolved in. */
  predicate StaysBelow(s: string)
  {
    && !IsAbsolute(s)
    && forall i :: 0 <= i < |Strings.Split(s, '/')| ==> Strings.Split(s, '/')[i] != ".."
  }

  lemma {:induction false} NormalizeExtends(base: Path, comps: seq<string>)
    requires forall i :: 0 <= i < |comps| ==> comps[i] != ".."
    ensures base <= Normalize(base, comps)
    ensures (exists i :: 0 <= i < |comps| && comps[i] != "" && comps[i] != ".")
        ==> base < Normalize(base, comps)
    decreases |comps|
  {
    if |comps| > 0 {
      var c := comps[0];
      var next := if c == "" || c == "." then base else base + [c];
      NormalizeExtends(next, comps[1..]);
      if exists i :: 0 <= i < |comps| && comps[i] != "" && comps[i] != "." {
        var i :| 0 <= i < |comps| && comps[i] != "" && comps[i] != ".";
        if i > 0 {
          assert comps[1..][i - 1] == comps[i];
        }
      }
    }
  }

  /** Resolving a path without `..` against a directory stays inside it. */
  lemma ResolveStaysBelow(cwd: Path, s: string)
    requires StaysBelow(s)
    ensures cwd <= Resolve(cwd, s)
  {
    NormalizeExtends(cwd, Strings.Split(s, '/'));
  }
}

=== FILE: post_receive.dfy ===
/** The post-receive hook: on a push to `master` it checks the commit out into
    the scratch directory, binds the build file's storage directories to
    permanent ones, moves the tree into `_application/`, repoints the
    `ln-release` symlink at it, purges older releases and runs composer. */
module PostReceive {
  import opened Results
  import Strings
  import Paths
  import opened Json
  import ParseJson
  import opened FileSystem
  import opened PreReceive

  /** The paths `PostReceive.__init__` derives from the `buildDir` setting. */
  datatype Layout = Layout(buildDir: string, symlinkPointer: string, locPermanentDirs: string, locAppBundle: string)

  /** `PostReceive.__init__`'s paths: the build directory with a trailing
      separator, its `ln-release` symlink, and its `_permanent/` and
      `_application/` directories. */
  function LayoutFor(buildDirSetting: string): (l: Layout)
    ensures l.buildDir == "" || l.buildDir[|l.buildDir| - 1] == '/'
    ensures l.symlinkPointer == l.buildDir + "ln-release"
    ensures l.locPermanentDirs == l.buildDir + "_permanent/"
    ensures l.locAppBundle == l.buildDir + "_application/"
  {
    var b := Paths.Join(buildDirSetting, "");
    Paths.JoinEmptyKeepsTarget([], buildDirSetting);
    Layout(b, Paths.Join(b, "ln-release"),
           Paths.Join(Paths.Join(b, "_permanent"), ""),
           Paths.Join(Paths.Join(b, "_application"), ""))
  }

  /** The layout paths lead to `ln-release`, `_permanent` and `_application`
      inside the configured build directory. */
  lemma LayoutResolves(cwd: Path, buildDirSetting: string)
    ensures var l := LayoutFor(buildDirSetting);
      var root := Paths.Resolve(cwd, buildDirSetting);
      && Paths.Resolve(cwd, l.buildDir) == root
      && Paths.Resolve(cwd, l.symlinkPointer) == root + ["ln-release"]
      && Paths.Resolve(cwd, l.locPermanentDirs) == root + ["_permanent"]
      && Paths.Resolve(cwd, l.locAppBundle) == root + ["_application"]
  {
    var b := Paths.Join(buildDirSetting, "");
    Paths.JoinEmptyKeepsTarget(cwd, buildDirSetting);
    Paths.ResolveJoinName(cwd, b, "ln-release");
    Paths.ResolveJoinName(cwd, b, "_permanent");
    Paths.ResolveJoinName(cwd, b, "_application");
    Paths.JoinEmptyKeepsTarget(cwd, Paths.Join(b, "_permanent"));
    Paths.JoinEmptyKeepsTarget(cwd, Paths.Join(b, "_application"));
  }

  /** The text the release symlink holds: relative, so the build directory
      can be relocated. */
  function ReleaseLinkText(newCommitID: string): string
  {
    "_application" + "/" + newCommitID
  }

  /** Read in a directory `dir`, the link text leads to `dir/_application/<commit>`. */
  lemma ReleaseLinkTextResolves(dir: Path, newCommitID: string)
    requires Paths.IsName(newCommitID)
    ensures Paths.Resolve(dir, ReleaseLinkText(newCommitID)) == dir + ["_application", newCommitID]
  {
    assert Paths.IsName("_application");
    Paths.ResolveTwoNames(dir, "_application", newCommitID);
  }

  /** Read from the directory holding `ln-release`, the relative link text
      leads to the release directory `_application/<commit>`. */
  lemma ReleaseLinkLeadsToRelease(cwd: Path, buildDirSetting: string, newCommitID: string)
    requires Paths.IsName(newCommitID)
    ensures var l := LayoutFor(buildDirSetting);
      LinkTarget(Paths.Resolve(cwd, l.symlinkPointer), ReleaseLinkText(newCommitID))
        == Paths.Resolve(cwd, l.locAppBundle) + [newCommitID]
  {
    LayoutResolves(cwd, buildDirSetting);
    var l := LayoutFor(buildDirSetting);
    var root := Paths.Resolve(cwd, buildDirSetting);
    var ptr := Paths.Resolve(cwd, l.symlinkPointer);
    assert ptr == root + ["ln-release"];
    assert Paths.Parent(ptr) == root;
    ReleaseLinkTextResolves(root, newCommitID);
  }

  /** `PostReceive.__init__`: the layout, then the same input split as the
      pre-receive hook (`None` when it raises). */
  function PostReceiveInit(inputs: string, buildDirSetting: string): (r: Option<(Layout, HookInput)>)
    ensures r.Some? <==> ParseInput(inputs).Some?
    ensures r.Some? ==> r.value.0 == LayoutFor(buildDirSetting) && r.value.1 == ParseInput(inputs).value
  {
    match ParseInput(inputs)
    case None => None
    case Some(input) => Some((LayoutFor(buildDirSetting), input))
  }

  /** The build file keys the hook reads, already split on `.`. */
  const STORAGE_DIRS: seq<string> := ["storage", "dirs"]
  const COMPOSER_WORKING_DIR: seq<string> := ["composer", "workingDir"]

  /** Looking up the split key is `key('storage.dirs')`. */
  lemma StorageDirsKey(doc: Value)
    ensures ParseJson.Key(doc, "storage.dirs") == ParseJson.KeyPath(doc, STORAGE_DIRS)
  {
    assert '.' !in STORAGE_DIRS[0] && '.' !in STORAGE_DIRS[1];
    Strings.JoinThenSplit(STORAGE_DIRS, '.');
    assert Strings.Join(STORAGE_DIRS, '.') == "storage.dirs";
  }

  /** Looking up the split key is `key('composer.workingDir')`. */
  lemma ComposerWorkingDirKey(doc: Value)
    ensures ParseJson.Key(doc, "composer.workingDir") == ParseJson.KeyPath(doc, COMPOSER_WORKING_DIR)
  {
    assert '.' !in COMPOSER_WORKING_DIR[0] && '.' !in COMPOSER_WORKING_DIR[1];
    Strings.JoinThenSplit(COMPOSER_WORKING_DIR, '.');
    assert Strings.Join(COMPOSER_WORKING_DIR, '.') == "composer.workingDir";
  }

  /** What the hook reports, one tag per message that matters. */
  datatype Event =
    | NotDeployed
    | CommitAccepted
    | BundleDirFailed
    | CloneFailed
    | NoStorageDirs
    | PermanentStorageAdded(relativePath: string)
    | StorageBindFailed
    | Moved
    | MoveFailed
    | SymlinkFailed
    | Purged
    | PurgeFailed
    | StructureOk
    | NoComposerRun
    | ComposerAnnounced(setting: Value)
    | ComposerInstall(workingDir: string)
    | ComposerFailed

  /** The stage of the runner that reports an event: the report of a run
      lists its stages in order. */
  function Phase(e: Event): nat
  {
    if e.NotDeployed? || e.CommitAccepted? then 0
    else if e.BundleDirFailed? then 1
    else if e.CloneFailed? then 2
    else if e.NoStorageDirs? || e.PermanentStorageAdded? || e.StorageBindFailed? then 3
    else if e.Moved? || e.MoveFailed? then 4
    else if e.SymlinkFailed? then 5
    else if e.Purged? || e.PurgeFailed? then 6
    else if e.StructureOk? then 7
    else 8
  }

  /** The composer step's events: its note naming the working directory and
      its outcomes. */
  predicate IsComposerNote(e: Event)
  {
    e.NoComposerRun? || e.ComposerAnnounced? || e.ComposerInstall? || e.ComposerFailed?
  }

  /** The events that end a run early. */
  predicate IsAbort(e: Event)
  {
    e == CloneFailed || e == StorageBindFailed
  }

  /** The storage step's notes: a missing `storage.dirs` and each permanent
      directory created. */
  predicate IsStorageNote(e: Event)
  {
    e.NoStorageDirs? || e.PermanentStorageAdded?
  }

  predicate AllStorageNotes(es: seq<Event>)
  {
    forall i :: 0 <= i < |es| ==> IsStorageNote(es[i])
  }

  /** What the storage step adds to the report: notes only, and when the step
      ends the run, one `StorageBindFailed` after them. */
  predicate StorageReport(before: seq<Event>, after: seq<Event>, aborted: bool)
  {
    && before <= after
    && var added := after[|before|..];
       if aborted then |added| > 0 && added[|added| - 1] == StorageBindFailed && AllStorageNotes(added[..|added| - 1])
       else AllStorageNotes(added)
  }

  lemma StorageReportChain(a: seq<Event>, b: seq<Event>, c: seq<Event>, aborted: bool)
    requires StorageReport(a, b, false) && StorageReport(b, c, aborted)
    ensures StorageReport(a, c, aborted)
  {
    var x := b[|a|..];
    var y := c[|b|..];
    assert c[|a|..] == x + y;
    if aborted {
      assert c[|a|..][..|x + y| - 1] == x + y[..|y| - 1];
    }
  }

  /** The report lists its stages in order, none later than `phase`. */
  predicate OrderedUpTo(log: seq<Event>, phase: nat)
  {
    && (forall i :: 0 < i < |log| ==> Phase(log[i - 1]) <= Phase(log[i]))
    && (forall i :: 0 <= i < |log| ==> Phase(log[i]) <= phase)
  }

  lemma OrderedExtend(log: seq<Event>, more: seq<Event>, last: nat, phase: nat)
    requires OrderedUpTo(log, last) && last <= phase
    requires forall i :: 0 <= i < |more| ==> Phase(more[i]) == phase
    ensures OrderedUpTo(log + more, phase)
  {
    var after := log + more;
    forall i | 0 < i < |after|
      ensures Phase(after[i - 1]) <= Phase(after[i])
    {
      if i < |log| {
        assert after[i - 1] == log[i - 1] && after[i] == log[i];
      } else if i == |log| {
        assert after[i - 1] == log[i - 1] && after[i] == more[0];
      } else {
        assert after[i - 1] == more[i - 1 - |log|] && after[i] == more[i - |log|];
      }
    }
    forall i | 0 <= i < |after|
      ensures Phase(after[i]) <= phase
    {
      if i < |log| {
        assert after[i] == log[i];
      } else {
        assert after[i] == more[i - |log|];
      }
    }
  }

  /** Appending one event of a stage no earlier than the report's last. */
  lemma OrderedPush(log: seq<Event>, e: Event, last: nat)
    requires OrderedUpTo(log, last) && last <= Phase(e)
    ensures OrderedUpTo(log + [e], Phase(e))
  {
    OrderedExtend(log, [e], last, Phase(e));
  }

  /** The hook, the file system and the report so far. */
  datatype Run = Run(hook: Hook, fs: Tree, log: seq<Event>)

  /** A stage either lets the runner continue or ends it with `sys.exit(0)`. */
  datatype Stage = Continue(run: Run) | Abort(run: Run)

  function Logged(r: Run, e: Event): Run
  {
    r.(log := r.log + [e])
  }

  /** `if not os.path.exists(p): os.makedirs(p)` on the path text `p`. */
  function MakeIfMissing(fs: Tree, cwd: Path, p: string): (r: Result<Tree, Errno>)
    ensures ExistsText(fs, cwd, p) ==> r == Ok(fs)
    ensures r.Ok? ==> ExistsText(r.value, cwd, p)
    // a file where a `/`-terminated text names a directory: `exists` is false
    // and `os.makedirs` raises
    ensures p != "" && p[|p| - 1] == '/' && Lookup(fs, Paths.Resolve(cwd, p)) == Some(File) ==> r.Err?
    ensures r.Ok? ==> forall q :: q in fs ==> q in r.value && r.value[q] == fs[q]
    ensures r.Ok? ==> forall q :: q in r.value && q !in fs ==> r.value[q] == Dir && q <= Paths.Resolve(cwd, p)
  {
    if ExistsText(fs, cwd, p) then Ok(fs)
    else if p == "" then Err(ENOENT)
    else MakeDirs(fs, Paths.Resolve(cwd, p))
  }

  /** The first `try` block: makes the build, permanent and application
      directories when `os.path.exists` does not see them; the first failure
      skips the rest and is only reported. */
  function EnsureBundleDirs(r: Run, env: Env, l: Layout): (r': Run)
    ensures r'.hook == r.hook
    ensures r'.log == r.log || r'.log == r.log + [BundleDirFailed]
    // without a report, `os.path.exists` sees all three directories
    ensures r'.log == r.log ==>
      && ExistsText(r'.fs, env.cwd, l.buildDir)
      && ExistsText(r'.fs, env.cwd, l.locPermanentDirs)
      && ExistsText(r'.fs, env.cwd, l.locAppBundle)
    // a file at the `/`-terminated permanent path is reported
    ensures var perm := l.locPermanentDirs;
      (perm != "" && perm[|perm| - 1] == '/' && Lookup(r.fs, Paths.Resolve(env.cwd, perm)) == Some(File))
        ==> r'.log == r.log + [BundleDirFailed]
    ensures forall q :: q in r.fs ==> q in r'.fs && r'.fs[q] == r.fs[q]
    ensures forall q :: q in r'.fs && q !in r.fs ==> r'.fs[q] == Dir
  {
    match MakeIfMissing(r.fs, env.cwd, l.buildDir)
    case Err(_) => Logged(r, BundleDirFailed)
    case Ok(fs1) =>
      match MakeIfMissing(fs1, env.cwd, l.locPermanentDirs)
      case Err(_) => Logged(r.(fs := fs1), BundleDirFailed)
      case Ok(fs2) =>
        match MakeIfMissing(fs2, env.cwd, l.locAppBundle)
        case Err(_) => Logged(r.(fs := fs2), BundleDirFailed)
        case Ok(fs3) =>
          ExistsTextGrows(fs1, fs3, env.cwd, l.buildDir);
          ExistsTextGrows(fs2, fs3, env.cwd, l.locPermanentDirs);
          r.(fs := fs3)
  }

  /** The clone `try` block: `tmpDir()` then `git --work-tree=<tmp> checkout -f
      <commit>`. `checkout` is the tree git writes, `None` when git fails.
      Any failure ends the run. */
  function CloneProject(r: Run, env: Env, checkout: Option<Tree>): (s: Stage)
    ensures s.Abort? <==> TmpDir(r.hook, r.fs, env).Err? || checkout.None?
    ensures s.Abort? ==> s.run.log == r.log + [CloneFailed]
    ensures s.Continue? ==> s.run.log == r.log && s.run.hook.tmpDir.Some?
    ensures s.Continue? && r.hook.tmpDir.None? ==>
      s.run.hook.tmpDir == Some(TempDirPath(env.tmpRoot, r.hook.input.newCommitID))
    ensures s.run.hook.input == r.hook.input && s.run.hook.parsed == r.hook.parsed
    // git writes the commit's tree into the scratch directory
    ensures s.Continue? ==> forall q :: q in checkout.value ==>
      var p := Paths.Resolve(env.cwd, s.run.hook.tmpDir.value) + q;
      p in s.run.fs && s.run.fs[p] == checkout.value[q]
  {
    match TmpDir(r.hook, r.fs, env)
    case Err(_) => Abort(Logged(r, CloneFailed))
    case Ok(t) =>
      match checkout
      case None => Abort(Run(t.hook, t.fs, r.log + [CloneFailed]))
      case Some(tree) => Continue(Run(t.hook, Overlay(t.fs, Paths.Resolve(env.cwd, t.out), tree), r.log))
  }

  /** `abspath(join(tmp, relativePath))`: where the storage loop puts the link. */
  function StorageLink(cwd: Path, tmp: string, relativePath: string): Path
  {
    Paths.Resolve(cwd, Paths.Join(tmp, relativePath))
  }

  /** Where `join(locPermanentDirs, relativePath)` leads: the permanent directory. */
  function PermanentPath(cwd: Path, perm: string, relativePath: string): Path
  {
    Paths.Resolve(cwd, Paths.Join(perm, relativePath))
  }

  /** How binding one storage directory ends: the file system reached, and
      whether the permanent directory was created (and reported) on the way. */
  datatype BindOutcome = Bound(fs: Tree, created: bool) | BindFailed(fs: Tree, created: bool)

  /** The start of a turn: whatever git put where the link goes is deleted,
      a directory with `rmtree` and anything else with `os.remove`. */
  function ClearLinkPlace(fs: Tree, full: Path): (r: Result<Tree, Errno>)
    ensures r.Ok? ==> forall q :: q in r.value ==> q in fs && r.value[q] == fs[q]
    ensures r.Ok? ==> forall q :: q in fs && !(full <= q) ==> q in r.value
    // in a well-formed tree nothing below the link's place survives
    ensures r.Ok? && WellFormed(fs) ==> forall q :: full < q ==> q !in r.value
  {
    if !Exists(fs, full) then
      assert WellFormed(fs) ==> forall q :: full < q ==> q !in fs by {
        if WellFormed(fs) {
          forall q | full < q && q in fs
            ensures false
          {
            if full != [] {
              WellFormedAncestor(fs, q, full);
            }
          }
        }
      }
      Ok(fs)
    else if IsDir(fs, full) then RemoveDir(fs, full)
    else
      assert WellFormed(fs) ==> forall q :: full < q ==> q !in fs by {
        if WellFormed(fs) {
          forall q | full < q && q in fs
            ensures false
          {
            if full != [] {
              WellFormedAncestor(fs, q, full);
            }
          }
        }
      }
      Remove(fs, full)
  }

  /** `genSymlink(generated, full)`, the last step of a turn. */
  function LinkStorage(fs: Tree, generated: string, full: Path, created: bool): BindOutcome
  {
    match GenSymlink(fs, generated, full)
    case Err(_) => BindFailed(fs, created)
    case Ok(fs') => Bound(fs', created)
  }

  /** The rest of a turn, on the cleared tree: `os.makedirs` for the permanent
      directory `generated` when `os.path.exists` does not see it, and the
      note naming `relativePath`, then the link at `full`. */
  function PlacePermanent(fs: Tree, cwd: Path, generated: string, relativePath: string, full: Path): (b: BindOutcome)
    ensures b.Bound? ==> Lookup(b.fs, full) == Some(Symlink(generated))
    ensures b.Bound? ==> Lookup(b.fs, Paths.Resolve(cwd, generated)).Some?
    ensures b.created ==> IsRealDir(b.fs, Paths.Resolve(cwd, generated))
    ensures b.created ==> Lookup(fs, Paths.Resolve(cwd, generated)).None?
    ensures b.Bound? && Lookup(fs, Paths.Resolve(cwd, generated)).None? ==> b.created
    // the note cannot be printed for a non-ASCII path, so the turn raises
    ensures b.created ==> IsAscii(relativePath)
    ensures forall q :: q in fs ==> q in b.fs && b.fs[q] == fs[q]
    ensures forall q :: q in b.fs ==>
      || q in fs
      || q == full
      || (q in Ancestors(Paths.Resolve(cwd, generated)) && b.fs[q] == Dir)
  {
    var gp := Paths.Resolve(cwd, generated);
    if ExistsText(fs, cwd, generated) then LinkStorage(fs, generated, full, false)
    else if generated == "" then BindFailed(fs, false)
    else
      match MakeDirs(fs, gp)
      case Err(_) => BindFailed(fs, false)
      case Ok(fs2) =>
        // the note formats `relativePath` with `str()`, which raises after the
        // directory is made and before the link
        if !IsAscii(relativePath) then BindFailed(fs2, false)
        else LinkStorage(fs2, generated, full, true)
  }

  /** One turn of the storage loop for `relativePath`: clear whatever git put
      at `<tmp>/<relativePath>`, make `<permanent>/<relativePath>` if
      `os.path.exists` does not see it, then link the first to the second. */
  function BindStorageDir(fs: Tree, cwd: Path, tmp: string, perm: string, relativePath: string): (b: BindOutcome)
    ensures b.Bound? ==>
      Lookup(b.fs, StorageLink(cwd, tmp, relativePath)) == Some(Symlink(Paths.Join(perm, relativePath)))
    ensures b.Bound? ==> Lookup(b.fs, PermanentPath(cwd, perm, relativePath)).Some?
    // the permanent directory is reported created only when the turn made it,
    // and a bound turn made it whenever nothing was there
    ensures b.created ==> IsRealDir(b.fs, PermanentPath(cwd, perm, relativePath))
    ensures b.created ==>
      Lookup(fs, PermanentPath(cwd, perm, relativePath)).None?
      || StorageLink(cwd, tmp, relativePath) <= PermanentPath(cwd, perm, relativePath)
    ensures b.Bound? && Lookup(fs, PermanentPath(cwd, perm, relativePath)).None? ==> b.created
    // a missing permanent directory named by a non-ASCII path fails the turn
    // unreported, since the note that would name it raises
    ensures b.created ==> IsAscii(relativePath)
    ensures !IsAscii(relativePath) && Lookup(fs, PermanentPath(cwd, perm, relativePath)).None? ==> b.BindFailed?
    // only the link's own subtree is cleared
    ensures forall q :: q in fs && !(StorageLink(cwd, tmp, relativePath) <= q) ==> q in b.fs && b.fs[q] == fs[q]
    // and only the link and the directories down to the permanent one appear
    ensures forall q :: q in b.fs ==>
      || (q in fs && b.fs[q] == fs[q])
      || q == StorageLink(cwd, tmp, relativePath)
      || (q in Ancestors(PermanentPath(cwd, perm, relativePath)) && b.fs[q] == Dir)
    // in a well-formed tree a bound turn keeps nothing of what was below the link
    ensures WellFormed(fs) && b.Bound? ==> forall q :: StorageLink(cwd, tmp, relativePath) < q && q in b.fs ==>
      q in Ancestors(PermanentPath(cwd, perm, relativePath))
  {
    var full := StorageLink(cwd, tmp, relativePath);
    match ClearLinkPlace(fs, full)
    case Err(_) => BindFailed(fs, false)
    case Ok(fs1) =>
      var gp := PermanentPath(cwd, perm, relativePath);
      var b := PlacePermanent(fs1, cwd, Paths.Join(perm, relativePath), relativePath, full);
      assert !(full <= gp) && gp in fs ==> gp in fs1;
      assert b.created && !(full <= gp) ==> Lookup(fs, gp).None?;
      b
  }

  /** A relative storage path without `..` leads inside both the scratch and
      the permanent directory, so when those lie apart, so do the link and
      the permanent directory it names. */
  lemma StoragePathsApart(cwd: Path, tmp: string, perm: string, relativePath: string)
    requires Paths.StaysBelow(relativePath)
    requires var t := Paths.Resolve(cwd, tmp);
      var p := Paths.Resolve(cwd, perm);
      !(t <= p) && !(p <= t)
    ensures var full := StorageLink(cwd, tmp, relativePath);
      var gp := PermanentPath(cwd, perm, relativePath);
      !(full <= gp) && !(gp <= full)
  {
    var t := Paths.Resolve(cwd, tmp);
    var p := Paths.Resolve(cwd, perm);
    Paths.JoinResolves(cwd, tmp, relativePath);
    Paths.JoinResolves(cwd, perm, relativePath);
    Paths.ResolveStaysBelow(t, relativePath);
    Paths.ResolveStaysBelow(p, relativePath);
  }

  /** For a relative storage path without `..` and a scratch directory that
      lies apart from the permanent one, a successful binding leaves nothing
      of what git had put below `<tmp>/<relativePath>`, and an existing
      permanent directory is kept rather than created again. */
  lemma BindStorageDirClears(fs: Tree, cwd: Path, tmp: string, perm: string, relativePath: string)
    requires WellFormed(fs)
    requires BindStorageDir(fs, cwd, tmp, perm, relativePath).Bound?
    requires Paths.StaysBelow(relativePath)
    requires var t := Paths.Resolve(cwd, tmp);
      var p := Paths.Resolve(cwd, perm);
      !(t <= p) && !(p <= t)
    ensures var b := BindStorageDir(fs, cwd, tmp, perm, relativePath);
      var full := StorageLink(cwd, tmp, relativePath);
      var gp := PermanentPath(cwd, perm, relativePath);
      && (forall q :: full < q ==> q !in b.fs)
      && (IsRealDir(fs, gp) ==> !b.created && IsRealDir(b.fs, gp))
  {
    StoragePathsApart(cwd, tmp, perm, relativePath);
    var gp := PermanentPath(cwd, perm, relativePath);
    assert forall q :: q in Ancestors(gp) ==> q <= gp;
  }

  /** The note for a permanent directory the turn created. */
  function StorageAdded(created: bool, relativePath: string): seq<Event>
  {
    if created then [PermanentStorageAdded(relativePath)] else []
  }

  /** One entry of the `storage.dirs` list: a non-string entry makes
      `os.path.join` raise; otherwise the scratch directory (memoised) and
      `BindStorageDir`. A created permanent directory is reported as soon as
      it is made, so before any failure of the link that follows. */
  function BindItem(r: Run, env: Env, l: Layout, item: Value): (s: Stage)
    ensures s.Continue? ==> item.Str?
    ensures s.Continue? ==> s.run.log == r.log || s.run.log == r.log + [PermanentStorageAdded(item.s)]
    ensures s.Abort? ==>
      || s.run.log == r.log + [StorageBindFailed]
      || (item.Str? && s.run.log == r.log + [PermanentStorageAdded(item.s), StorageBindFailed])
    ensures StorageReport(r.log, s.run.log, s.Abort?)
    ensures s.run.hook.parsed == r.hook.parsed && s.run.hook.input == r.hook.input
    ensures r.hook.tmpDir.Some? ==> s.run.hook == r.hook
    // a reported permanent directory exists as a directory; once the scratch
    // directory is known, a missing one is always reported by a bound turn
    ensures item.Str? && |s.run.log| > |r.log| && s.run.log[|r.log|] == PermanentStorageAdded(item.s) ==>
      IsRealDir(s.run.fs, PermanentPath(env.cwd, l.locPermanentDirs, item.s))
    ensures r.hook.tmpDir.Some? && s.Continue? && Lookup(r.fs, PermanentPath(env.cwd, l.locPermanentDirs, item.s)).None? ==>
      s.run.log == r.log + [PermanentStorageAdded(item.s)]
    // a non-ASCII entry is never reported, and when its permanent directory
    // is missing the note's `UnicodeEncodeError` ends the run
    ensures item.Str? && !IsAscii(item.s) ==> s.run.log == r.log || s.run.log == r.log + [StorageBindFailed]
    ensures (r.hook.tmpDir.Some? && item.Str? && !IsAscii(item.s)
             && Lookup(r.fs, PermanentPath(env.cwd, l.locPermanentDirs, item.s)).None?) ==> s.Abort?
    // a continuing turn leaves the link in the scratch directory
    ensures s.Continue? ==>
      && s.run.hook.tmpDir.Some?
      && Lookup(s.run.fs, StorageLink(env.cwd, s.run.hook.tmpDir.value, item.s))
           == Some(Symlink(Paths.Join(l.locPermanentDirs, item.s)))
    // and clears nothing outside the link's own subtree
    ensures r.hook.tmpDir.Some? && item.Str? ==>
      forall q :: q in r.fs && !(StorageLink(env.cwd, r.hook.tmpDir.value, item.s) <= q) ==>
        q in s.run.fs && s.run.fs[q] == r.fs[q]
    ensures !item.Str? ==> s.run.fs == r.fs
  {
    match item
    case Str(relativePath) =>
      (match TmpDir(r.hook, r.fs, env)
       case Err(_) => Abort(Logged(r, StorageBindFailed))
       case Ok(t) =>
         match BindStorageDir(t.fs, env.cwd, t.out, l.locPermanentDirs, relativePath)
         case BindFailed(fs', created) =>
           Abort(Run(t.hook, fs', r.log + StorageAdded(created, relativePath) + [StorageBindFailed]))
         case Bound(fs', created) =>
           Continue(Run(t.hook, fs', r.log + StorageAdded(created, relativePath))))
    case _ => Abort(Logged(r, StorageBindFailed))
  }

  /** The storage loop over the `storage.dirs` list. Any raise ends the run,
      keeping what earlier turns (and the failing turn so far) did. */
  function BindStorageDirs(r: Run, env: Env, l: Layout, items: seq<Value>): (s: Stage)
    ensures StorageReport(r.log, s.run.log, s.Abort?)
    ensures s.Continue? ==> forall i :: 0 <= i < |items| ==> items[i].Str?
    ensures s.run.hook.parsed == r.hook.parsed && s.run.hook.input == r.hook.input
    ensures r.hook.tmpDir.Some? ==> s.run.hook == r.hook
    decreases |items|
  {
    if |items| == 0 then Continue(r)
    else
      match BindItem(r, env, l, items[0])
      case Abort(r') => Abort(r')
      case Continue(r') =>
        var s := BindStorageDirs(r', env, l, items[1..]);
        AllStrCons(items, s.Continue?);
        StorageReportChain(r.log, r'.log, s.run.log, s.Abort?);
        s
  }

  lemma AllStrCons(items: seq<Value>, finished: bool)
    requires |items| > 0 && items[0].Str?
    requires finished ==> forall i :: 0 <= i < |items| - 1 ==> items[1..][i].Str?
    ensures finished ==> forall i :: 0 <= i < |items| ==> items[i].Str?
  {
    if finished {
      assert forall i :: 1 <= i < |items| ==> items[1..][i - 1] == items[i];
    }
  }

  /** An entry outside every entry's link keeps its place through the whole
      loop, whether or not the loop finishes. */
  lemma {:induction false} StorageLoopKeeps(r: Run, env: Env, l: Layout, items: seq<Value>, q: Path)
    requires r.hook.tmpDir.Some?
    requires q in r.fs
    requires forall i :: 0 <= i < |items| && items[i].Str? ==>
      !(StorageLink(env.cwd, r.hook.tmpDir.value, items[i].s) <= q)
    ensures var s := BindStorageDirs(r, env, l, items);
      q in s.run.fs && s.run.fs[q] == r.fs[q]
    decreases |items|
  {
    if |items| > 0 {
      match BindItem(r, env, l, items[0])
      case Abort(_) =>
      case Continue(r') =>
        forall i | 0 <= i < |items[1..]| && items[1..][i].Str?
          ensures !(StorageLink(env.cwd, r'.hook.tmpDir.value, items[1..][i].s) <= q)
        {
          assert items[1..][i] == items[i + 1];
        }
        StorageLoopKeeps(r', env, l, items[1..], q);
    }
  }

  /** No entry's link lies at or above the link of an earlier entry. */
  predicate LinksApart(cwd: Path, tmp: string, items: seq<Value>)
  {
    forall i, j :: 0 <= i < j < |items| && items[i].Str? && items[j].Str? ==>
      !(StorageLink(cwd, tmp, items[j].s) <= StorageLink(cwd, tmp, items[i].s))
  }

  /** A storage loop that finishes leaves, for every entry, a symlink at
      `<tmp>/<entry>` holding `<locPermanentDirs>/<entry>`, provided no later
      entry clears an earlier entry's link. */
  lemma {:induction false} StorageLinksBound(r: Run, env: Env, l: Layout, items: seq<Value>)
    requires r.hook.tmpDir.Some?
    requires LinksApart(env.cwd, r.hook.tmpDir.value, items)
    requires BindStorageDirs(r, env, l, items).Continue?
    ensures var s := BindStorageDirs(r, env, l, items).run;
      forall i :: 0 <= i < |items| ==>
        && items[i].Str?
        && Lookup(s.fs, StorageLink(env.cwd, r.hook.tmpDir.value, items[i].s))
             == Some(Symlink(Paths.Join(l.locPermanentDirs, items[i].s)))
    decreases |items|
  {
    if |items| > 0 {
      var tmp := r.hook.tmpDir.value;
      var r' := BindItem(r, env, l, items[0]).run;
      var rest := items[1..];
      assert LinksApart(env.cwd, tmp, rest) by {
        forall i, j | 0 <= i < j < |rest| && rest[i].Str? && rest[j].Str?
          ensures !(StorageLink(env.cwd, tmp, rest[j].s) <= StorageLink(env.cwd, tmp, rest[i].s))
        {
          assert rest[i] == items[i + 1] && rest[j] == items[j + 1];
        }
      }
      StorageLinksBound(r', env, l, rest);
      var link := StorageLink(env.cwd, tmp, items[0].s);
      forall i | 0 <= i < |rest| && rest[i].Str?
        ensures !(StorageLink(env.cwd, tmp, rest[i].s) <= link)
      {
        assert rest[i] == items[i + 1];
      }
      StorageLoopKeeps(r', env, l, rest, link);
      var s := BindStorageDirs(r, env, l, items).run;
      forall i | 0 <= i < |items|
        ensures items[i].Str?
        ensures Lookup(s.fs, StorageLink(env.cwd, tmp, items[i].s))
             == Some(Symlink(Paths.Join(l.locPermanentDirs, items[i].s)))
      {
        if i > 0 {
          assert items[i] == rest[i - 1];
        }
      }
    }
  }

  /** The storage `try` block. `parsedBuildFile()` yields `None` for a malformed
      file and `None.key` raises, as does `key` on a non-object root; an
      absent `storage.dirs` is only a warning; a value that is not a list
      ends the run. */
  function ApplyStorageRules(r: Run, env: Env, l: Layout, load: JsonLoad): (s: Stage)
    ensures StorageReport(r.log, s.run.log, s.Abort?)
    ensures s.Continue? ==> s.run.hook.parsed.Some? && s.run.hook.parsed.value.Some?
    ensures s.run.hook.input == r.hook.input
    ensures r.hook.tmpDir.Some? ==> s.run.hook.tmpDir == r.hook.tmpDir
    // an absent `storage.dirs` only warns: once the scratch directory exists,
    // the tree is left as it is
    ensures var p := ParsedBuildFile(r.hook, r.fs, env, load);
      p.Ok? && p.value.out.Some? && ParseJson.KeyPath(p.value.out.value, STORAGE_DIRS).Miss? ==>
        && s.Continue? && s.run.log == r.log + [NoStorageDirs]
        && (r.hook.tmpDir.Some? ==> s.run.fs == r.fs)
    // a present value that is not a list ends the run
    ensures var p := ParsedBuildFile(r.hook, r.fs, env, load);
      p.Ok? && p.value.out.Some? && ParseJson.KeyPath(p.value.out.value, STORAGE_DIRS).Hit?
      && !ParseJson.KeyPath(p.value.out.value, STORAGE_DIRS).value.Arr? ==>
        s.Abort? && s.run.log == r.log + [StorageBindFailed]
  {
    match ParsedBuildFile(r.hook, r.fs, env, load)
    case Err(_) => Abort(Logged(r, StorageBindFailed))
    case Ok(p) =>
      var r1 := Run(p.hook, p.fs, r.log);
      match p.out
      case None => Abort(Logged(r1, StorageBindFailed))
      case Some(doc) => StorageRules(r1, env, l, doc)
  }

  /** The storage rules of a parsed build file `doc`. */
  function StorageRules(r: Run, env: Env, l: Layout, doc: Value): (s: Stage)
    ensures StorageReport(r.log, s.run.log, s.Abort?)
    ensures s.run.hook.parsed == r.hook.parsed && s.run.hook.input == r.hook.input
    ensures r.hook.tmpDir.Some? ==> s.run.hook.tmpDir == r.hook.tmpDir
    ensures ParseJson.KeyPath(doc, STORAGE_DIRS).Miss? ==>
      s.Continue? && s.run.log == r.log + [NoStorageDirs] && s.run.fs == r.fs
    ensures var k := ParseJson.KeyPath(doc, STORAGE_DIRS);
      k.Hit? && !k.value.Arr? ==> s.Abort? && s.run.log == r.log + [StorageBindFailed]
  {
    match ParseJson.KeyPath(doc, STORAGE_DIRS)
    case NotADict => Abort(Logged(r, StorageBindFailed))
    case Miss => Continue(Logged(r, NoStorageDirs))
    case Hit(v) =>
      if !v.Arr? then Abort(Logged(r, StorageBindFailed))
      else BindStorageDirs(r, env, l, v.items)
  }

  /** What a stage that cannot end the run leaves: the hook, the file system
      and the events it reports. */
  datatype Step = Step(hook: Hook, fs: Tree, events: seq<Event>)

  /** `shutil.move(src, app)` once the scratch directory `src` is known; a
      failure leaves the files as they were. */
  function MoveScratch(h: Hook, fs: Tree, src: Path, app: Path): (s: Step)
    ensures s.hook == h
    ensures s.events == [Moved] || s.events == [MoveFailed]
    ensures s.events == [Moved] <==> Move(fs, src, app).Ok?
    ensures s.events == [MoveFailed] ==> s.fs == fs
    // a real directory as destination stays, and receives the tree under the
    // scratch directory's own name
    ensures IsRealDir(fs, app) ==> IsRealDir(s.fs, app)
    ensures s.events == [Moved] && src != app && IsRealDir(fs, app) ==>
      src != [] && src in fs && MovedTo(fs, s.fs, src, app + [src[|src| - 1]])
  {
    match Move(fs, src, app)
    case Err(_) => Step(h, fs, [MoveFailed])
    case Ok(fs') =>
      assert IsRealDir(fs, app) ==> IsRealDir(fs', app) by {
        if IsRealDir(fs, app) {
          MoveKeepsDestDir(fs, src, app);
        }
      }
      if src != app && IsRealDir(fs, app) then
        MoveIntoDir(fs, src, app);
        Step(h, fs', [Moved])
      else
        Step(h, fs', [Moved])
  }

  /** The move `try` block: `shutil.move(tmpDir(), locAppBundle)`; a failure is
      only reported. */
  function MoveToRelease(h: Hook, fs: Tree, env: Env, l: Layout): (s: Step)
    ensures s.events == [Moved] || s.events == [MoveFailed]
    ensures s.hook.parsed == h.parsed && s.hook.input == h.input
    ensures s.events == [Moved] <==>
      TmpDir(h, fs, env).Ok? &&
      var t := TmpDir(h, fs, env).value;
      Move(t.fs, Paths.Resolve(env.cwd, t.out), Paths.Resolve(env.cwd, l.locAppBundle)).Ok?
    // with the scratch directory known and `_application/` a directory, a
    // move puts the scratch tree at `_application/<its last name>`, leaves
    // nothing at the old place and touches nothing else
    ensures h.tmpDir.Some? && s.events == [Moved] ==>
      var src := Paths.Resolve(env.cwd, h.tmpDir.value);
      var app := Paths.Resolve(env.cwd, l.locAppBundle);
      src != app && IsRealDir(fs, app) ==>
        src != [] && src in fs && MovedTo(fs, s.fs, src, app + [src[|src| - 1]])
    // a real `_application/` stays one
    ensures var app := Paths.Resolve(env.cwd, l.locAppBundle);
      IsRealDir(fs, app) ==> IsRealDir(s.fs, app)
    // a failure is only reported: at most the scratch directory is made
    ensures s.events == [MoveFailed] ==> forall q :: q in fs ==> q in s.fs && s.fs[q] == fs[q]
    ensures s.events == [MoveFailed] ==> forall q :: q in s.fs && q !in fs ==> s.fs[q] == Dir
    ensures h.tmpDir.Some? && s.events == [MoveFailed] ==> s.fs == fs
  {
    match TmpDir(h, fs, env)
    case Err(_) => Step(h, fs, [MoveFailed])
    case Ok(t) => MoveScratch(t.hook, t.fs, Paths.Resolve(env.cwd, t.out), Paths.Resolve(env.cwd, l.locAppBundle))
  }

  /** The symlink `try` block: `ln-release` is removed only when it is a
      symlink, then re-created with the relative text `_application/<commit>`;
      a failure is only reported. */
  function PointRelease(h: Hook, fs: Tree, env: Env, l: Layout): (s: Step)
    ensures s.hook == h
    ensures s.events == [] || s.events == [SymlinkFailed]
    ensures s.events == [] <==>
      var ptr := Paths.Resolve(env.cwd, l.symlinkPointer);
      (Lookup(fs, ptr).None? || IsSymlink(fs, ptr)) && IsRealDir(fs, Paths.Parent(ptr)) && ptr != []
    ensures s.events == [] ==>
      Lookup(s.fs, Paths.Resolve(env.cwd, l.symlinkPointer)) == Some(Symlink(ReleaseLinkText(h.input.newCommitID)))
    ensures var ptr := Paths.Resolve(env.cwd, l.symlinkPointer);
      forall q :: q != ptr ==> (q in s.fs <==> q in fs) && (q in fs ==> s.fs[q] == fs[q])
    // a file or directory at `ln-release` is never removed
    ensures var ptr := Paths.Resolve(env.cwd, l.symlinkPointer);
      Lookup(fs, ptr).Some? && !IsSymlink(fs, ptr) ==> Lookup(s.fs, ptr) == Lookup(fs, ptr)
  {
    var ptr := Paths.Resolve(env.cwd, l.symlinkPointer);
    var unlinked := if IsSymlink(fs, ptr) then Remove(fs, ptr) else Ok(fs);
    match unlinked
    case Err(_) => Step(h, fs, [SymlinkFailed])
    case Ok(fs1) =>
      match GenSymlink(fs1, ReleaseLinkText(h.input.newCommitID), ptr)
      case Err(_) => Step(h, fs1, [SymlinkFailed])
      case Ok(fs2) => Step(h, fs2, [])
  }

  /** The purge `try` block: plain directories in `_application/` (or in the
      directory a symlink there leads to) other than the new release are
      deleted; a failure is only reported. */
  function PurgeStale(h: Hook, fs: Tree, env: Env, l: Layout): (s: Step)
    ensures s.hook == h
    ensures var app := Paths.Resolve(env.cwd, l.locAppBundle);
      s.events == [if IsDir(fs, app) then Purged else PurgeFailed]
    // afterwards the only plain directory left there is the release
    ensures var app := Paths.Resolve(env.cwd, l.locAppBundle);
      var d := DirAt(fs, app);
      IsDir(fs, app) ==> forall n :: d + [n] in s.fs && s.fs[d + [n]] == Dir ==> n == h.input.newCommitID
    // symlinks and anything but a directory stay, however they are named
    ensures var d := DirAt(fs, Paths.Resolve(env.cwd, l.locAppBundle));
      forall n :: d + [n] in fs && (IsSymlink(fs, d + [n]) || fs[d + [n]] != Dir) ==> d + [n] in s.fs
    // it only deletes, and keeps the release and everything outside the purged directory
    ensures forall q :: q in s.fs ==> q in fs && s.fs[q] == fs[q]
    ensures var d := DirAt(fs, Paths.Resolve(env.cwd, l.locAppBundle));
      forall q :: q in fs && (!(d < q) || d + [h.input.newCommitID] <= q) ==> q in s.fs
  {
    var app := Paths.Resolve(env.cwd, l.locAppBundle);
    var id := h.input.newCommitID;
    match Purge(fs, app, [id])
    case Err(_) => Step(h, fs, [PurgeFailed])
    case Ok(fs') =>
      var d := DirAt(fs, app);
      assert forall q :: d + [id] <= q ==> q[|d|] == id;
      Step(h, fs', [Purged])
  }

  /** What the composer step reports for the loaded build file. An absent
      `composer.workingDir` is reported as such. Otherwise the step announces
      the value, unless `str()` of it raises; then composer is run in
      `<locAppBundle>/<commit>/<workingDir>` when the value is a string, and
      anything else (no document, a value `os.path.join` rejects, the
      announcement raising) is reported as a failure. */
  function ComposerEvents(parsed: Option<Value>, l: Layout, newCommitID: string): (es: seq<Event>)
    ensures |es| == 1 || |es| == 2
    ensures forall i :: 0 <= i < |es| ==> IsComposerNote(es[i])
    ensures es == [NoComposerRun] <==> parsed.Some? && ParseJson.KeyPath(parsed.value, COMPOSER_WORKING_DIR).Miss?
    // the value is announced exactly when it is present and printable
    ensures es[0].ComposerAnnounced? <==>
      parsed.Some? && ParseJson.KeyPath(parsed.value, COMPOSER_WORKING_DIR).Hit?
      && Printable(ParseJson.KeyPath(parsed.value, COMPOSER_WORKING_DIR).value)
    ensures es[0].ComposerAnnounced? ==>
      |es| == 2 && es[0].setting == ParseJson.KeyPath(parsed.value, COMPOSER_WORKING_DIR).value
    ensures !es[0].ComposerAnnounced? ==> |es| == 1
    // composer runs exactly for an ASCII string, in the release's subdirectory
    ensures es[|es| - 1].ComposerInstall? <==>
      parsed.Some? && ParseJson.KeyPath(parsed.value, COMPOSER_WORKING_DIR).Hit?
      && ParseJson.KeyPath(parsed.value, COMPOSER_WORKING_DIR).value.Str?
      && IsAscii(ParseJson.KeyPath(parsed.value, COMPOSER_WORKING_DIR).value.s)
    ensures es[|es| - 1].ComposerInstall? ==>
      es[|es| - 1].workingDir == Paths.Join(Paths.Join(l.locAppBundle, newCommitID),
                                            ParseJson.KeyPath(parsed.value, COMPOSER_WORKING_DIR).value.s)
    // every other outcome is a reported failure
    ensures es[|es| - 1] == ComposerFailed <==> !es[|es| - 1].ComposerInstall? && es != [NoComposerRun]
  {
    match parsed
    case None => [ComposerFailed]
    case Some(doc) =>
      match ParseJson.KeyPath(doc, COMPOSER_WORKING_DIR)
      case NotADict => [ComposerFailed]
      case Miss => [NoComposerRun]
      case Hit(v) =>
        if !Printable(v) then [ComposerFailed]
        else if v.Str? then [ComposerAnnounced(v), ComposerInstall(Paths.Join(Paths.Join(l.locAppBundle, newCommitID), v.s))]
        else [ComposerAnnounced(v), ComposerFailed]
  }

  /** The composer step's report: perhaps the announcement, then one outcome. */
  predicate ComposerShape(c: seq<Event>)
  {
    && (|c| == 1 || |c| == 2)
    && forall i :: 0 <= i < |c| ==> IsComposerNote(c[i])
  }

  /** The composer `try` block: re-reads the memoised build file; composer's
      own outcome is not inspected, and its effect on the files is not part of
      this model. */
  function RunComposer(h: Hook, fs: Tree, env: Env, l: Layout, load: JsonLoad): (s: Step)
    ensures s.fs == fs
    ensures ComposerShape(s.events)
    ensures h.parsed.Some? ==> s.events == ComposerEvents(h.parsed.value, l, h.input.newCommitID)
  {
    match ParsedBuildFile(h, fs, env, load)
    case Err(_) => Step(h, fs, [ComposerFailed])
    case Ok(p) => Step(p.hook, fs, ComposerEvents(p.out, l, h.input.newCommitID))
  }

  /** Where `Project structure OK` sits in the release stages' report: after
      the move's outcome, a symlink failure if there was one, and the purge's
      outcome. */
  function StructureAt(t: seq<Event>): nat
  {
    if |t| > 1 && t[1] == SymlinkFailed then 3 else 2
  }

  /** What the release stages add to the report: the move's outcome, a
      symlink failure if there was one, the purge's outcome, `StructureOk`
      and the composer step's report. */
  predicate ReleaseShape(t: seq<Event>)
  {
    var k := StructureAt(t);
    && k < |t|
    && Phase(t[0]) == 4
    && Phase(t[k - 1]) == 6
    && t[k] == StructureOk
    && ComposerShape(t[k + 1..])
  }

  /** The move's outcome and a symlink failure, if any, keep a report that
      reaches no further than the storage step in order. */
  lemma CutoverLogInOrder(log: seq<Event>, t: seq<Event>, last: nat)
    requires OrderedUpTo(log, last) && last < 4
    requires ReleaseShape(t)
    ensures OrderedUpTo(log + t[..StructureAt(t) - 1], 5)
  {
    OrderedPush(log, t[0], last);
    if StructureAt(t) == 2 {
      assert log + t[..1] == log + [t[0]];
    } else {
      assert log + t[..2] == log + [t[0]] + [SymlinkFailed];
      OrderedPush(log + [t[0]], SymlinkFailed, 4);
    }
  }

  lemma ComposerNotePhase(e: Event)
    requires IsComposerNote(e)
    ensures Phase(e) == 8
  {
  }

  /** The release stages' report, appended to one that reaches no further
      than the storage step, keeps the stages in order. */
  lemma ReleaseLogInOrder(log: seq<Event>, t: seq<Event>, last: nat)
    requires OrderedUpTo(log, last) && last < 4
    requires ReleaseShape(t)
    ensures OrderedUpTo(log + t, 8)
  {
    var k := StructureAt(t);
    CutoverLogInOrder(log, t, last);
    var l5 := log + t[..k - 1];
    var l6 := l5 + [t[k - 1]];
    OrderedPush(l5, t[k - 1], 5);
    OrderedPush(l6, StructureOk, 6);
    var c := t[k + 1..];
    forall i | 0 <= i < |c|
      ensures Phase(c[i]) == 8
    {
      ComposerNotePhase(c[i]);
    }
    OrderedExtend(l6 + [StructureOk], c, 7, 8);
    assert t == t[..k - 1] + [t[k - 1]] + [StructureOk] + c;
    assert l6 + [StructureOk] + c == log + t;
  }

  /** What the move, the symlink and the purge report: the move's outcome,
      a symlink failure if there was one, and the purge's outcome. */
  predicate CutoverShape(c: seq<Event>)
  {
    && (|c| == 2 || (|c| == 3 && c[1] == SymlinkFailed))
    && (c[0] == Moved || c[0] == MoveFailed)
    && (c[|c| - 1] == Purged || c[|c| - 1] == PurgeFailed)
  }

  lemma ReleaseEventsShape(cutover: seq<Event>, composer: seq<Event>)
    requires CutoverShape(cutover) && ComposerShape(composer)
    ensures ReleaseShape(cutover + [StructureOk] + composer)
  {
    var t := cutover + [StructureOk] + composer;
    var k := |cutover|;
    assert t[0] == cutover[0];
    assert StructureAt(t) == k;
    assert t[k - 1] == cutover[k - 1];
    assert t[k] == StructureOk;
    assert t[k + 1..] == composer;
  }

  /** The move, the symlink and the purge: the steps that put the release in
      place. */
  function Cutover(h: Hook, fs: Tree, env: Env, l: Layout): (s: Step)
    ensures CutoverShape(s.events)
    ensures s.hook.parsed == h.parsed && s.hook.input == h.input
  {
    var moved := MoveToRelease(h, fs, env, l);
    var linked := PointRelease(moved.hook, moved.fs, env, l);
    var purged := PurgeStale(linked.hook, linked.fs, env, l);
    CutoverEventsShape(moved.events, linked.events, purged.events);
    Step(purged.hook, purged.fs, moved.events + linked.events + purged.events)
  }

  lemma CutoverEventsShape(moved: seq<Event>, linked: seq<Event>, purged: seq<Event>)
    requires moved == [Moved] || moved == [MoveFailed]
    requires linked == [] || linked == [SymlinkFailed]
    requires purged == [Purged] || purged == [PurgeFailed]
    ensures CutoverShape(moved + linked + purged)
  {
  }

  /** Everything after the storage step, none of which can end the run: the
      cutover, the `Project structure OK` line and composer, which leaves the
      files as the cutover left them. */
  function Release(h: Hook, fs: Tree, env: Env, l: Layout, load: JsonLoad): (s: Step)
    ensures ReleaseShape(s.events)
    ensures var c := Cutover(h, fs, env, l);
      s.fs == c.fs && s.events[..|c.events|] == c.events
  {
    AfterCutover(Cutover(h, fs, env, l), env, l, load)
  }

  /** The `Project structure OK` line and composer, after the cutover `c`. */
  function AfterCutover(c: Step, env: Env, l: Layout, load: JsonLoad): (s: Step)
    requires CutoverShape(c.events)
    ensures ReleaseShape(s.events)
    ensures s.fs == c.fs && s.events[..|c.events|] == c.events
  {
    var composer := RunComposer(c.hook, c.fs, env, l, load);
    var t := c.events + [StructureOk] + composer.events;
    ReleaseEventsShape(c.events, composer.events);
    assert t[..|c.events|] == c.events;
    Step(composer.hook, composer.fs, t)
  }

  /** In the release stages' report, a successful move can only be the
      first event. */
  lemma MovedLeads(t: seq<Event>)
    requires ReleaseShape(t) && Moved in t
    ensures t[0] == Moved
  {
  }

  /** A report that reaches no further than the storage step holds neither
      the move nor a symlink failure. */
  lemma NoCutoverYet(log: seq<Event>)
    requires OrderedUpTo(log, 3)
    ensures Moved !in log && SymlinkFailed !in log && StructureOk !in log
  {
  }

  /** With the scratch directory known, `_application/` a directory apart from
      it, and a move that succeeds, the cutover ends with the scratch tree at
      `_application/<commit>`; the symlink and purge steps that follow keep
      it as long as `ln-release` does not lie inside it. */
  lemma ReleaseLandsTree(h: Hook, fs: Tree, env: Env, l: Layout)
    requires h.tmpDir.Some?
    requires Cutover(h, fs, env, l).events[0] == Moved
    requires var src := Paths.Resolve(env.cwd, h.tmpDir.value);
      var app := Paths.Resolve(env.cwd, l.locAppBundle);
      && src != app && IsRealDir(fs, app)
      && |src| > 0 && src[|src| - 1] == h.input.newCommitID
      && !(app + [h.input.newCommitID] <= Paths.Resolve(env.cwd, l.symlinkPointer))
    ensures var src := Paths.Resolve(env.cwd, h.tmpDir.value);
      var rel := Paths.Resolve(env.cwd, l.locAppBundle) + [h.input.newCommitID];
      var f := Cutover(h, fs, env, l).fs;
      && src in fs && rel in f && f[rel] == fs[src]
      && forall q :: q in fs && src <= q ==> Rebase(q, src, rel) in f && f[Rebase(q, src, rel)] == fs[q]
  {
    var src := Paths.Resolve(env.cwd, h.tmpDir.value);
    var app := Paths.Resolve(env.cwd, l.locAppBundle);
    var rel := app + [h.input.newCommitID];
    var ptr := Paths.Resolve(env.cwd, l.symlinkPointer);
    var moved := MoveToRelease(h, fs, env, l);
    var linked := PointRelease(moved.hook, moved.fs, env, l);
    var purged := PurgeStale(linked.hook, linked.fs, env, l);
    assert Cutover(h, fs, env, l).events == moved.events + linked.events + purged.events;
    assert moved.events == [Moved];
    assert Cutover(h, fs, env, l).fs == purged.fs;
    assert MovedTo(fs, moved.fs, src, rel);
    forall q | q in fs && src <= q
      ensures Rebase(q, src, rel) in purged.fs && purged.fs[Rebase(q, src, rel)] == fs[q]
    {
      var q' := Rebase(q, src, rel);
      assert rel <= q';
      PointThenPurgeKeeps(moved.hook, moved.fs, env, l, q');
    }
    assert Rebase(src, src, rel) == rel;
  }

  /** An entry inside the release survives the symlink and purge steps when
      `_application/` is a real directory and `ln-release` lies outside the
      release. */
  lemma PointThenPurgeKeeps(h: Hook, fs: Tree, env: Env, l: Layout, q: Path)
    requires var app := Paths.Resolve(env.cwd, l.locAppBundle);
      && IsRealDir(fs, app)
      && !(app + [h.input.newCommitID] <= Paths.Resolve(env.cwd, l.symlinkPointer))
    requires q in fs && Paths.Resolve(env.cwd, l.locAppBundle) + [h.input.newCommitID] <= q
    ensures var linked := PointRelease(h, fs, env, l);
      var purged := PurgeStale(linked.hook, linked.fs, env, l);
      q in purged.fs && purged.fs[q] == fs[q]
  {
    var app := Paths.Resolve(env.cwd, l.locAppBundle);
    var linked := PointRelease(h, fs, env, l);
    assert q != Paths.Resolve(env.cwd, l.symlinkPointer);
    assert IsRealDir(linked.fs, app);
    assert DirAt(linked.fs, app) == app;
  }

  /** A move and no symlink failure in the release stages' report are the
      cutover's: the composer step reports neither. */
  lemma CutoverReported(h: Hook, fs: Tree, env: Env, l: Layout, load: JsonLoad)
    requires var t := Release(h, fs, env, l, load).events;
      Moved in t && SymlinkFailed !in t
    ensures var c := Cutover(h, fs, env, l).events;
      c[0] == Moved && SymlinkFailed !in c
    ensures Release(h, fs, env, l, load).fs == Cutover(h, fs, env, l).fs
  {
    var t := Release(h, fs, env, l, load).events;
    var c := Cutover(h, fs, env, l).events;
    MovedLeads(t);
    assert c == t[..|c|];
  }

  /** The stages before the release: the bundle directories, the clone and the
      storage rules. Each may end the run; none reports anything later. */
  function Prepare(l: Layout, input: HookInput, fs: Tree, env: Env, checkout: Option<Tree>, load: JsonLoad): (s: Stage)
    ensures s.run.hook.input == input
    ensures s.Continue? ==> s.run.hook.tmpDir == Some(TempDirPath(env.tmpRoot, input.newCommitID))
    ensures OrderedUpTo(s.run.log, 3)
  {
    var r1 := EnsureBundleDirs(Run(Fresh(input), fs, [CommitAccepted]), env, l);
    assert Opening(r1.log);
    OpeningInOrder(r1.log);
    match CloneProject(r1, env, checkout)
    case Abort(r) =>
      OrderedPush(r1.log, CloneFailed, 1);
      Abort(r)
    case Continue(r2) =>
      var s := ApplyStorageRules(r2, env, l, load);
      StorageReportInOrder(r1.log, s.run.log, s.Abort?, 1);
      s
  }

  /** How the runner ends: the state reached and the exit status. */
  datatype Finish = Finish(run: Run, status: int)

  /** `postReceiveRunner`, run by `PostReceive.__init__` on a fresh hook.
      `checkout` is the tree git writes into the scratch directory (`None`:
      git failed); `load` is what loading the build file from it gives. */
  function PostReceiveRunner(l: Layout, input: HookInput, fs: Tree, env: Env, checkout: Option<Tree>, load: JsonLoad): (f: Finish)
    // every way out is `sys.exit(0)`
    ensures f.status == 0
    // pushes to other branches are only reported
    ensures !BranchIsMaster(input) ==> f.run.fs == fs && f.run.log == [NotDeployed]
  {
    if !BranchIsMaster(input) then Finish(Run(Fresh(input), fs, [NotDeployed]), 0)
    else
      match Prepare(l, input, fs, env, checkout, load)
      case Abort(r) => Finish(r, 0)
      case Continue(r) =>
        var s := Release(r.hook, r.fs, env, l, load);
        Finish(Run(s.hook, s.fs, r.log + s.events), 0)
  }

  // ---------------------------------------------------------------------
  // The report of a run.

  predicate NoAbort(log: seq<Event>)
  {
    forall i :: 0 <= i < |log| ==> !IsAbort(log[i])
  }

  /** The storage step's report keeps the stages in order, and an abort, if
      any, is its last event. */
  lemma StorageReportInOrder(before: seq<Event>, after: seq<Event>, aborted: bool, last: nat)
    requires OrderedUpTo(before, last) && last <= 3 && NoAbort(before)
    requires StorageReport(before, after, aborted)
    ensures OrderedUpTo(after, 3)
    ensures aborted ==> |after| > 0 && NoAbort(after[..|after| - 1]) && IsAbort(after[|after| - 1])
    ensures !aborted ==> NoAbort(after)
  {
    var added := after[|before|..];
    assert after == before + added;
    var notes := if aborted then added[..|added| - 1] else added;
    OrderedExtend(before, notes, last, 3);
    if aborted {
      assert added == notes + [StorageBindFailed];
      assert after == before + notes + [StorageBindFailed];
      OrderedPush(before + notes, StorageBindFailed, 3);
      assert after[..|after| - 1] == before + notes;
    }
  }

  /** Nothing after the storage step ends the run. */
  lemma ReleaseNeverAborts(t: seq<Event>)
    requires ReleaseShape(t)
    ensures NoAbort(t) && StructureOk in t && !IsAbort(t[|t| - 1])
  {
    var k := StructureAt(t);
    assert t[k] == StructureOk;
    forall i | 0 <= i < |t|
      ensures !IsAbort(t[i])
    {
      if k < i {
        assert t[i] == t[k + 1..][i - k - 1];
      }
    }
  }

  /** What the report of a run on `master` promises: it opens with the
      accepted commit, lists the stages in order, holds at most one abort and
      only as its last event, and reaches `Project structure OK` exactly when
      there was none. */
  predicate MasterReport(log: seq<Event>)
  {
    && |log| > 0
    && log[0] == CommitAccepted
    && OrderedUpTo(log, 8)
    && (NoAbort(log) || (NoAbort(log[..|log| - 1]) && IsAbort(log[|log| - 1])))
    && (StructureOk in log <==> NoAbort(log))
  }

  /** The report up to the clone: the accepted commit and, perhaps, the
      failure to make the bundle directories. */
  predicate Opening(log: seq<Event>)
  {
    log == [CommitAccepted] || log == [CommitAccepted, BundleDirFailed]
  }

  lemma OpeningInOrder(log: seq<Event>)
    requires Opening(log)
    ensures OrderedUpTo(log, 1) && NoAbort(log) && log[0] == CommitAccepted
  {
    if log != [CommitAccepted] {
      OrderedPush([CommitAccepted], BundleDirFailed, 0);
      assert [CommitAccepted] + [BundleDirFailed] == log;
    }
  }

  /** An aborted run reports nothing of the later stages. */
  lemma AbortedReport(log: seq<Event>)
    requires |log| > 0 && log[0] == CommitAccepted && OrderedUpTo(log, 3)
    requires NoAbort(log[..|log| - 1]) && IsAbort(log[|log| - 1])
    ensures MasterReport(log)
  {
  }

  lemma CloneAbortReport(opening: seq<Event>)
    requires Opening(opening)
    ensures MasterReport(opening + [CloneFailed])
  {
    OpeningInOrder(opening);
    OrderedPush(opening, CloneFailed, 1);
    assert (opening + [CloneFailed])[..|opening|] == opening;
    AbortedReport(opening + [CloneFailed]);
  }

  lemma StorageAbortReport(opening: seq<Event>, log: seq<Event>)
    requires Opening(opening) && StorageReport(opening, log, true)
    ensures MasterReport(log)
  {
    OpeningInOrder(opening);
    StorageReportInOrder(opening, log, true, 1);
    assert log[0] == opening[0];
    AbortedReport(log);
  }

  lemma ReleasedReport(opening: seq<Event>, log: seq<Event>, t: seq<Event>)
    requires Opening(opening) && StorageReport(opening, log, false) && ReleaseShape(t)
    ensures MasterReport(log + t)
  {
    OpeningInOrder(opening);
    StorageReportInOrder(opening, log, false, 1);
    ReleaseLogInOrder(log, t, 3);
    ReleaseNeverAborts(t);
    assert (log + t)[0] == opening[0];
    assert (log + t)[|log| + StructureAt(t)] == StructureOk;
  }

  /** The report of every run: a push to another branch is only reported; a
      run on `master` gives a `MasterReport`. */
  lemma RunnerReport(l: Layout, input: HookInput, fs: Tree, env: Env, checkout: Option<Tree>, load: JsonLoad)
    ensures var log := PostReceiveRunner(l, input, fs, env, checkout, load).run.log;
      && (!BranchIsMaster(input) ==> log == [NotDeployed])
      && (BranchIsMaster(input) ==> MasterReport(log))
  {
    if BranchIsMaster(input) {
      var r1 := EnsureBundleDirs(Run(Fresh(input), fs, [CommitAccepted]), env, l);
      assert Opening(r1.log);
      match CloneProject(r1, env, checkout)
      case Abort(r) =>
        CloneAbortReport(r1.log);
      case Continue(r2) =>
        match ApplyStorageRules(r2, env, l, load)
        case Abort(r) =>
          StorageAbortReport(r1.log, r.log);
        case Continue(r3) =>
          ReleasedReport(r1.log, r3.log, Release(r3.hook, r3.fs, env, l, load).events);
    }
  }

  /** The cutover within the release stages: unless the symlink step
      failed, `ln-release` ends up a symlink holding `_application/<commit>`.
      With `_application/` a real directory, the purge that follows only
      deletes inside it, so it keeps the link whenever the link is not inside
      that directory. */
  lemma ReleaseSetsPointer(h: Hook, fs: Tree, env: Env, l: Layout)
    requires SymlinkFailed !in Cutover(h, fs, env, l).events
    requires IsRealDir(fs, Paths.Resolve(env.cwd, l.locAppBundle))
    requires !(Paths.Resolve(env.cwd, l.locAppBundle) < Paths.Resolve(env.cwd, l.symlinkPointer))
    ensures Lookup(Cutover(h, fs, env, l).fs, Paths.Resolve(env.cwd, l.symlinkPointer))
      == Some(Symlink(ReleaseLinkText(h.input.newCommitID)))
  {
    var app := Paths.Resolve(env.cwd, l.locAppBundle);
    var moved := MoveToRelease(h, fs, env, l);
    var linked := PointRelease(moved.hook, moved.fs, env, l);
    var purged := PurgeStale(linked.hook, linked.fs, env, l);
    assert Cutover(h, fs, env, l).events == moved.events + linked.events + purged.events;
    assert linked.events == [];
    assert IsRealDir(linked.fs, app);
    assert DirAt(linked.fs, app) == app;
  }

  /** The same for a whole run: a run that reaches `Project structure OK`
      without a symlink failure, with `_application/` a real directory when
      the release stages start, leaves `ln-release` holding
      `_application/<commit>`. */
  lemma RunSetsPointer(l: Layout, input: HookInput, fs: Tree, env: Env, checkout: Option<Tree>, load: JsonLoad)
    requires var f := PostReceiveRunner(l, input, fs, env, checkout, load);
      StructureOk in f.run.log && SymlinkFailed !in f.run.log
    requires var s := Prepare(l, input, fs, env, checkout, load);
      s.Continue? ==> IsRealDir(s.run.fs, Paths.Resolve(env.cwd, l.locAppBundle))
    requires !(Paths.Resolve(env.cwd, l.locAppBundle) < Paths.Resolve(env.cwd, l.symlinkPointer))
    ensures Lookup(PostReceiveRunner(l, input, fs, env, checkout, load).run.fs, Paths.Resolve(env.cwd, l.symlinkPointer))
      == Some(Symlink(ReleaseLinkText(input.newCommitID)))
  {
    if BranchIsMaster(input) {
      var s := Prepare(l, input, fs, env, checkout, load);
      NoCutoverYet(s.run.log);
      if s.Continue? {
        var t := Release(s.run.hook, s.run.fs, env, l, load);
        var c := Cutover(s.run.hook, s.run.fs, env, l);
        assert SymlinkFailed !in t.events;
        assert SymlinkFailed !in c.events by {
          assert c.events == t.events[..|c.events|];
        }
        ReleaseSetsPointer(s.run.hook, s.run.fs, env, l);
      }
    }
  }

  /** The cutover for a whole run, in any layout whose `ln-release` lies
      neither inside `_application/` nor inside the release: a run on
      `master` that reaches the release stages with `_application/` a
      directory apart from the scratch directory, and whose report shows the
      move and no symlink failure, ends with the scratch tree at
      `_application/<commit>` and `ln-release` holding `_application/<commit>`. */
  lemma RunLandsTree(l: Layout, input: HookInput, fs: Tree, env: Env, checkout: Option<Tree>, load: JsonLoad)
    requires BranchIsMaster(input)
    requires var s := Prepare(l, input, fs, env, checkout, load);
      var src := Paths.Resolve(env.cwd, TempDirPath(env.tmpRoot, input.newCommitID));
      var app := Paths.Resolve(env.cwd, l.locAppBundle);
      var ptr := Paths.Resolve(env.cwd, l.symlinkPointer);
      && s.Continue? && IsRealDir(s.run.fs, app) && src != app
      && |src| > 0 && src[|src| - 1] == input.newCommitID
      && !(app < ptr) && !(app + [input.newCommitID] <= ptr)
    requires var log := PostReceiveRunner(l, input, fs, env, checkout, load).run.log;
      Moved in log && SymlinkFailed !in log
    ensures var staged := Prepare(l, input, fs, env, checkout, load).run.fs;
      var f := PostReceiveRunner(l, input, fs, env, checkout, load).run.fs;
      var src := Paths.Resolve(env.cwd, TempDirPath(env.tmpRoot, input.newCommitID));
      var rel := Paths.Resolve(env.cwd, l.locAppBundle) + [input.newCommitID];
      && Lookup(f, Paths.Resolve(env.cwd, l.symlinkPointer)) == Some(Symlink(ReleaseLinkText(input.newCommitID)))
      && src in staged && rel in f && f[rel] == staged[src]
      && forall q :: q in staged && src <= q ==> Rebase(q, src, rel) in f && f[Rebase(q, src, rel)] == staged[q]
  {
    var r := Prepare(l, input, fs, env, checkout, load).run;
    var t := Release(r.hook, r.fs, env, l, load);
    assert PostReceiveRunner(l, input, fs, env, checkout, load).run == Run(t.hook, t.fs, r.log + t.events);
    NoCutoverYet(r.log);
    assert Moved in t.events && SymlinkFailed !in t.events;
    assert r.hook.tmpDir == Some(TempDirPath(env.tmpRoot, input.newCommitID));
    assert r.hook.input == input;
    ReleaseLands(r.hook, r.fs, env, l, load);
  }

  /** The release stages on their own: a report with the move and no symlink
      failure means the scratch tree landed at `_application/<commit>` and
      `ln-release` holds `_application/<commit>`. */
  lemma ReleaseLands(h: Hook, fs: Tree, env: Env, l: Layout, load: JsonLoad)
    requires h.tmpDir.Some?
    requires var t := Release(h, fs, env, l, load).events;
      Moved in t && SymlinkFailed !in t
    requires var src := Paths.Resolve(env.cwd, h.tmpDir.value);
      var app := Paths.Resolve(env.cwd, l.locAppBundle);
      var ptr := Paths.Resolve(env.cwd, l.symlinkPointer);
      && src != app && IsRealDir(fs, app)
      && |src| > 0 && src[|src| - 1] == h.input.newCommitID
      && !(app < ptr) && !(app + [h.input.newCommitID] <= ptr)
    ensures var f := Release(h, fs, env, l, load).fs;
      var src := Paths.Resolve(env.cwd, h.tmpDir.value);
      var rel := Paths.Resolve(env.cwd, l.locAppBundle) + [h.input.newCommitID];
      && Lookup(f, Paths.Resolve(env.cwd, l.symlinkPointer)) == Some(Symlink(ReleaseLinkText(h.input.newCommitID)))
      && src in fs && rel in f && f[rel] == fs[src]
      && forall q :: q in fs && src <= q ==> Rebase(q, src, rel) in f && f[Rebase(q, src, rel)] == fs[q]
  {
    CutoverReported(h, fs, env, l, load);
    ReleaseLandsTree(h, fs, env, l);
    ReleaseSetsPointer(h, fs, env, l);
  }

  /** A scratch area outside the build directory never makes the scratch
      directory `_application/` itself. */
  lemma ScratchApartFromBundle(tmp: Path, root: Path, commit: string)
    requires !(tmp <= root)
    ensures tmp + ["deploy_coord", commit] != root + ["_application"]
  {
    if |tmp| + 1 == |root| {
      assert (tmp + ["deploy_coord", commit])[..|root|] == tmp + ["deploy_coord"];
      assert (root + ["_application"])[..|root|] == root;
    }
  }

  /** The cutover in the hook's own layout. A run on `master` whose scratch
      area does not lie inside the build directory, that reaches the release
      stages with `_application/` a directory, and whose report shows the
      move and no symlink failure, ends with the checked-out tree at
      `_application/<commit>` and `ln-release` holding the text that leads
      there. */
  lemma ReleaseGoesLive(buildDirSetting: string, input: HookInput, fs: Tree, env: Env, checkout: Option<Tree>, load: JsonLoad)
    requires |env.tmpRoot| > 0 && Paths.IsName(input.newCommitID)
    requires BranchIsMaster(input)
    requires !(Paths.Resolve(env.cwd, env.tmpRoot) <= Paths.Resolve(env.cwd, buildDirSetting))
    requires var l := LayoutFor(buildDirSetting);
      var s := Prepare(l, input, fs, env, checkout, load);
      s.Continue? && IsRealDir(s.run.fs, Paths.Resolve(env.cwd, l.locAppBundle))
    requires var log := PostReceiveRunner(LayoutFor(buildDirSetting), input, fs, env, checkout, load).run.log;
      Moved in log && SymlinkFailed !in log
    ensures var l := LayoutFor(buildDirSetting);
      var staged := Prepare(l, input, fs, env, checkout, load).run.fs;
      var f := PostReceiveRunner(l, input, fs, env, checkout, load).run.fs;
      var ptr := Paths.Resolve(env.cwd, l.symlinkPointer);
      var src := Paths.Resolve(env.cwd, TempDirPath(env.tmpRoot, input.newCommitID));
      var rel := Paths.Resolve(env.cwd, l.locAppBundle) + [input.newCommitID];
      && Lookup(f, ptr) == Some(Symlink(ReleaseLinkText(input.newCommitID)))
      && LinkTarget(ptr, ReleaseLinkText(input.newCommitID)) == rel
      && src in staged && rel in f && f[rel] == staged[src]
      && (IsRealDir(staged, src) ==> IsRealDir(f, rel))
      && forall q :: q in staged && src <= q ==> Rebase(q, src, rel) in f && f[Rebase(q, src, rel)] == staged[q]
  {
    var l := LayoutFor(buildDirSetting);
    var commit := input.newCommitID;
    LayoutResolves(env.cwd, buildDirSetting);
    TempDirResolves(env.cwd, env.tmpRoot, commit);
    ReleaseLinkLeadsToRelease(env.cwd, buildDirSetting, commit);
    var root := Paths.Resolve(env.cwd, buildDirSetting);
    var tmp := Paths.Resolve(env.cwd, env.tmpRoot);
    var app := Paths.Resolve(env.cwd, l.locAppBundle);
    var ptr := Paths.Resolve(env.cwd, l.symlinkPointer);
    var src := Paths.Resolve(env.cwd, TempDirPath(env.tmpRoot, commit));
    ScratchApartFromBundle(tmp, root, commit);
    assert ptr[|root|] != app[|root|];
    RunLandsTree(l, input, fs, env, checkout, load);
  }
}

=== FILE: pre_receive.dfy ===
/** The pre-receive hook: parses git's input line, and on a push to `master`
    checks out `buildfile.json` into a scratch directory and rejects the push
    unless the file is valid JSON with a `project.name`. */
module PreReceive {
  import opened Results
  import Strings
  import Paths
  import opened Json
  import ParseJson
  import opened FileSystem

  const DEPLOYABLE_BRANCH := "master"
  const BUILDFILE_NAME := "buildfile.json"

  /** The three tokens git writes to the hook, and the branch taken from the ref. */
  datatype HookInput = HookInput(oldCommitID: string, newCommitID: string, commitRef: string, branchName: string)

  /** `PreReceive.__init__`: `inputs.split()` must give exactly three tokens,
      otherwise the tuple assignment raises `ValueError` (`None` here); the
      branch name is the ref's last `/`-separated segment. */
  function ParseInput(inputs: string): (r: Option<HookInput>)
    ensures r.Some? <==> |Strings.Words(inputs)| == 3
    ensures r.Some? ==>
      [r.value.oldCommitID, r.value.newCommitID, r.value.commitRef] == Strings.Words(inputs)
    ensures r.Some? ==>
      var ref, b := r.value.commitRef, r.value.branchName;
      && '/' !in b
      && |b| <= |ref|
      && ref[|ref| - |b|..] == b
      && (|b| == |ref| || ref[|ref| - |b| - 1] == '/')
  {
    var ws := Strings.Words(inputs);
    if |ws| != 3 then None
    else
      Strings.LastSegmentIsSuffix(ws[2], '/');
      Some(HookInput(ws[0], ws[1], ws[2], Strings.LastSegment(ws[2], '/')))
  }

  /** The line git writes: three tokens separated by spaces, newline-terminated. */
  function HookLine(oldCommitID: string, newCommitID: string, commitRef: string): string
  {
    oldCommitID + " " + newCommitID + " " + commitRef + "\n"
  }

  /** Parsing git's line gives back the three tokens. */
  lemma ParseInputOfHookLine(oldCommitID: string, newCommitID: string, commitRef: string)
    requires Strings.IsWord(oldCommitID) && Strings.IsWord(newCommitID) && Strings.IsWord(commitRef)
    ensures ParseInput(HookLine(oldCommitID, newCommitID, commitRef))
         == Some(HookInput(oldCommitID, newCommitID, commitRef, Strings.LastSegment(commitRef, '/')))
  {
    var ws := [oldCommitID, newCommitID, commitRef];
    var joined := Strings.Join(ws, ' ');
    assert Strings.Join(ws[1..], ' ') == newCommitID + [' '] + commitRef by {
      assert ws[1..][1..] == [commitRef];
    }
    assert joined == oldCommitID + " " + newCommitID + " " + commitRef;
    Strings.WordsOfJoin(ws);
    Strings.WordsIgnoreTrailingSpace(joined, '\n');
    assert HookLine(oldCommitID, newCommitID, commitRef) == joined + ['\n'];
  }

  /** `branchIsMaster`. For an input whose branch was taken from the ref, as
      `__init__` takes it, the push is to `master` exactly when the ref is
      `master` or ends in `/master`. */
  function BranchIsMaster(input: HookInput): (b: bool)
    ensures input.branchName == Strings.LastSegment(input.commitRef, '/') ==>
      (b <==> input.commitRef == "master"
              || (|input.commitRef| > 6 && input.commitRef[|input.commitRef| - 7..] == "/master"))
  {
    MasterRef(input.commitRef);
    input.branchName == DEPLOYABLE_BRANCH
  }

  /** The branch of a ref is `master` exactly when the ref is `master` or ends
      in `/master`, as `refs/heads/master` does. */
  lemma MasterRef(commitRef: string)
    ensures (Strings.LastSegment(commitRef, '/') == "master")
        <==> (commitRef == "master" || (|commitRef| > 6 && commitRef[|commitRef| - 7..] == "/master"))
  {
    Strings.LastSegmentIs(commitRef, '/', "master");
  }

  /** Where the hooks run: the system temp directory and the working directory
      relative paths are resolved against. */
  datatype Env = Env(tmpRoot: string, cwd: Path)

  /** A hook instance: its input and the two memoised attributes `_tmpDir`
      and `_parsedBuildFile` (outer `None`: not computed yet; `Some(None)`:
      the build file was not valid JSON). */
  datatype Hook = Hook(input: HookInput, tmpDir: Option<string>, parsed: Option<Option<Value>>)

  function Fresh(input: HookInput): Hook
  {
    Hook(input, None, None)
  }

  /** The outcome of `json.load(open(path))` on the build file. */
  datatype JsonLoad = Loaded(doc: Value) | Malformed | Unreadable

  /** A memoised call's result, with the hook and file system after it. */
  datatype Stepped<T> = Stepped(hook: Hook, fs: Tree, out: T)

  /** `tmpDir()`: computed (and the directory created) on the first call only. */
  function TmpDir(h: Hook, fs: Tree, env: Env): (r: Result<Stepped<string>, Errno>)
    ensures h.tmpDir.Some? ==> r == Ok(Stepped(h, fs, h.tmpDir.value))
    ensures r.Ok? ==> r.value.hook == h.(tmpDir := Some(r.value.out))
    ensures h.tmpDir.None? && r.Ok? ==>
      r.value.out == TempDirPath(env.tmpRoot, h.input.newCommitID)
      && IsDir(r.value.fs, Paths.Resolve(env.cwd, r.value.out))
    ensures r.Ok? ==> forall q :: q in fs ==> q in r.value.fs && r.value.fs[q] == fs[q]
    ensures r.Ok? ==> forall q :: q in r.value.fs && q !in fs ==> r.value.fs[q] == Dir
  {
    match h.tmpDir
    case Some(d) => Ok(Stepped(h, fs, d))
    case None =>
      match TempDirFor(fs, env.cwd, env.tmpRoot, h.input.newCommitID)
      case Err(e) => Err(e)
      case Ok(made) => Ok(Stepped(h.(tmpDir := Some(made.1)), made.0, made.1))
  }

  /** `parsedBuildFile()`: on the first call, builds the path from `tmpDir()`
      and loads the file; `ValueError` (malformed JSON) is cached as `None`,
      while a failure to open the file propagates. Later calls return the
      cached result. */
  function ParsedBuildFile(h: Hook, fs: Tree, env: Env, load: JsonLoad): (r: Result<Stepped<Option<Value>>, Errno>)
    ensures h.parsed.Some? ==> r == Ok(Stepped(h, fs, h.parsed.value))
    ensures r.Ok? ==> r.value.hook.parsed == Some(r.value.out) && r.value.hook.input == h.input
    ensures h.parsed.None? && r.Ok? ==>
      && (load.Loaded? ==> r.value.out == Some(load.doc))
      && (load.Malformed? ==> r.value.out == None)
    ensures h.parsed.None? && load.Unreadable? ==> r.Err?
  {
    match h.parsed
    case Some(cached) => Ok(Stepped(h, fs, cached))
    case None =>
      match TmpDir(h, fs, env)
      case Err(e) => Err(e)
      case Ok(t) =>
        match load
        case Unreadable => Err(ENOENT)
        case Malformed => Ok(Stepped(t.hook.(parsed := Some(None)), t.fs, None))
        case Loaded(doc) => Ok(Stepped(t.hook.(parsed := Some(Some(doc))), t.fs, Some(doc)))
  }

  /** Once computed, `tmpDir()` answers the same path whatever has happened to
      the file system since, and touches nothing. */
  lemma TmpDirMemoised(h: Hook, fs: Tree, env: Env, later: Tree)
    requires TmpDir(h, fs, env).Ok?
    ensures var t := TmpDir(h, fs, env).value;
      TmpDir(t.hook, later, env) == Ok(Stepped(t.hook, later, t.out))
  {
  }

  /** Once computed, `parsedBuildFile()` answers the first result, a cached
      `None` included, whatever the file now holds. */
  lemma ParsedBuildFileMemoised(h: Hook, fs: Tree, env: Env, load: JsonLoad, later: Tree, reload: JsonLoad)
    requires ParsedBuildFile(h, fs, env, load).Ok?
    ensures var p := ParsedBuildFile(h, fs, env, load).value;
      ParsedBuildFile(p.hook, later, env, reload) == Ok(Stepped(p.hook, later, p.out))
  {
  }

  /** How the gate ends. `Crashed` is an exception the hook does not catch
      (the scratch directory cannot be made or removed, the file cannot be
      opened, the JSON root is not an object, or the project name is a string
      `str()` cannot encode); Python then exits with 1. */
  datatype GateEnd =
    | NotDeployable
    | MissingBuildfile
    | InvalidBuildfile
    | MissingProjectName
    | Accepted(projectName: Value)
    | Crashed

  /** The hook's exit status; `git` rejects the push on a non-zero one. */
  function ExitStatus(e: GateEnd): (status: int)
    ensures status == 0 || status == 1
    // git lets the push through only for another branch or an accepted build file
    ensures status == 0 <==> e == NotDeployable || e.Accepted?
  {
    match e
    case NotDeployable => 0
    case Accepted(_) => 0
    case _ => 1
  }

  datatype Gate = Gate(hook: Hook, fs: Tree, end: GateEnd)

  /** `cleanupTmpDir()` followed by `sys.exit(1)`. */
  function Cleanup(h: Hook, fs: Tree, env: Env, end: GateEnd): (g: Gate)
    ensures g.end == end || g.end == Crashed
    ensures g.end != Crashed ==>
      && g.hook.tmpDir.Some?
      && (h.tmpDir.Some? ==> g.hook.tmpDir == h.tmpDir)
      && Lookup(g.fs, Paths.Resolve(env.cwd, g.hook.tmpDir.value)).None?
  {
    match TmpDir(h, fs, env)
    case Err(_) => Gate(h, fs, Crashed)
    case Ok(t) =>
      match RemoveDir(t.fs, Paths.Resolve(env.cwd, t.out))
      case Err(_) => Gate(t.hook, t.fs, Crashed)
      case Ok(fs') => Gate(t.hook, fs', end)
  }

  /** `git --work-tree=<tmp> checkout -f <commit> buildfile.json`, when it
      succeeds: the file now sits in the scratch directory. */
  function CheckoutBuildfile(fs: Tree, cwd: Path, tmp: string): (r: Tree)
    ensures Lookup(r, Paths.Resolve(cwd, tmp) + [BUILDFILE_NAME]) == Some(File)
    ensures r.Keys == fs.Keys + {Paths.Resolve(cwd, tmp) + [BUILDFILE_NAME]}
    ensures forall q :: q in fs && q != Paths.Resolve(cwd, tmp) + [BUILDFILE_NAME] ==> r[q] == fs[q]
  {
    fs[Paths.Resolve(cwd, tmp) + [BUILDFILE_NAME] := File]
  }

  /** `preReceiveRunner`, run by `PreReceive.__init__` on a fresh hook.
      `checkoutOk` is whether git's checkout of the build file exits with 0;
      `load` is what loading the checked-out file gives. */
  function PreReceiveRunner(input: HookInput, fs: Tree, env: Env, checkoutOk: bool, load: JsonLoad): (g: Gate)
    // pushes to other branches are let through with no file-system effect
    ensures g.end == NotDeployable <==> !BranchIsMaster(input)
    ensures !BranchIsMaster(input) ==> g.fs == fs && g.hook == Fresh(input)
    // the push is accepted exactly when every check passes
    ensures g.end.Accepted? <==>
      && BranchIsMaster(input)
      && TempDirFor(fs, env.cwd, env.tmpRoot, input.newCommitID).Ok?
      && checkoutOk
      && load.Loaded?
      && ParseJson.Key(load.doc, "project.name").Hit?
      && Printable(ParseJson.Key(load.doc, "project.name").value)
    ensures g.end.Accepted? ==>
      && g.end.projectName == ParseJson.Key(load.doc, "project.name").value
      && Lookup(g.fs, Paths.Resolve(env.cwd, TempDirPath(env.tmpRoot, input.newCommitID)) + [BUILDFILE_NAME]) == Some(File)
    // a name with a non-ASCII character makes the success message raise: the
    // hook exits with 1 and leaves the scratch directory and the file in place
    ensures
      && BranchIsMaster(input)
      && TempDirFor(fs, env.cwd, env.tmpRoot, input.newCommitID).Ok?
      && checkoutOk
      && load.Loaded?
      && ParseJson.Key(load.doc, "project.name").Hit?
      && !Printable(ParseJson.Key(load.doc, "project.name").value) ==>
        && g.end == Crashed
        && Lookup(g.fs, Paths.Resolve(env.cwd, TempDirPath(env.tmpRoot, input.newCommitID)) + [BUILDFILE_NAME]) == Some(File)
    // each rejection has its own cause, and the scratch directory is gone after it
    ensures g.end == MissingBuildfile ==> BranchIsMaster(input) && !checkoutOk
    ensures g.end == InvalidBuildfile ==> BranchIsMaster(input) && checkoutOk && load.Malformed?
    ensures g.end == MissingProjectName ==>
      BranchIsMaster(input) && checkoutOk && load.Loaded? && ParseJson.Key(load.doc, "project.name").Miss?
    ensures g.end in {MissingBuildfile, InvalidBuildfile, MissingProjectName} ==>
      Lookup(g.fs, Paths.Resolve(env.cwd, TempDirPath(env.tmpRoot, input.newCommitID))).None?
  {
    var h := Fresh(input);
    if !BranchIsMaster(input) then Gate(h, fs, NotDeployable)
    else
      match TmpDir(h, fs, env)
      case Err(_) => Gate(h, fs, Crashed)
      case Ok(t) =>
        if !checkoutOk then Cleanup(t.hook, t.fs, env, MissingBuildfile)
        else
          var fs1 := CheckoutBuildfile(t.fs, env.cwd, t.out);
          match ParsedBuildFile(t.hook, fs1, env, load)
          case Err(_) => Gate(t.hook, fs1, Crashed)
          case Ok(p) =>
            match p.out
            case None => Cleanup(p.hook, p.fs, env, InvalidBuildfile)
            case Some(doc) =>
              match ParseJson.Key(doc, "project.name")
              case NotADict => Gate(p.hook, p.fs, Crashed)
              case Miss => Cleanup(p.hook, p.fs, env, MissingProjectName)
              case Hit(name) =>
                // `str(projectName)` in the success message
                if Printable(name) then Gate(p.hook, p.fs, Accepted(name))
                else Gate(p.hook, p.fs, Crashed)
  }
}

=== FILE: results.dfy ===
/** Failure-carrying wrappers shared by the model: `Option` for Python's
    "value or None", `Result` for "value or raised error". */
module Results {

  datatype Option<+T> = None | Some(value: T)

  datatype Result<+T, +E> = Ok(value: T) | Err(error: E)
}

=== FILE: strings.dfy ===
/** String helpers with the semantics of Python 2's `str.split(sep)`,
    `sep.join(parts)` and the argument-less, whitespace-splitting `str.split()`. */
module Strings {

  /** `s.split(sep)` for a one-character separator: every occurrence of `sep`
      ends a part, so there is always at least one part and no part holds `sep`. */
  function Split(s: string, sep: char): (parts: seq<string>)
    ensures |parts| >= 1
    ensures forall i :: 0 <= i < |parts| ==> sep !in parts[i]
    decreases |s|
  {
    if |s| == 0 then [""]
    else
      var rest := Split(s[1..], sep);
      if s[0] == sep then [""] + rest
      else [[s[0]] + rest[0]] + rest[1..]
  }

  /** `sep.join(parts)`. */
  function Join(parts: seq<string>, sep: char): string
    decreases |parts|
  {
    if |parts| == 0 then ""
    else if |parts| == 1 then parts[0]
    else parts[0] + [sep] + Join(parts[1..], sep)
  }

  /** `s.split(sep)[-1]`: the text after the last separator, or all of `s`. */
  function LastSegment(s: string, sep: char): string
  {
    var parts := Split(s, sep);
    parts[|parts| - 1]
  }

  /** Joining the parts of a split gives back the original string. */
  lemma {:induction false} SplitThenJoin(s: string, sep: char)
    ensures Join(Split(s, sep), sep) == s
    decreases |s|
  {
    if |s| > 0 {
      var rest := Split(s[1..], sep);
      SplitThenJoin(s[1..], sep);
      if s[0] == sep {
        assert ([""] + rest)[1..] == rest;
        assert s == [sep] + s[1..];
      } else {
        var parts := [[s[0]] + rest[0]] + rest[1..];
        if |rest| == 1 {
          assert s == [s[0]] + rest[0];
        } else {
          assert parts[1..] == rest[1..];
          assert Join(rest, sep) == rest[0] + [sep] + Join(rest[1..], sep);
          assert s == [s[0]] + s[1..];
        }
      }
    }
  }

  /** A string without the separator is a single part. */
  lemma {:induction false} SplitWithoutSeparator(s: string, sep: char)
    requires sep !in s
    ensures Split(s, sep) == [s]
    decreases |s|
  {
    if |s| > 0 {
      assert sep !in s[1..];
      SplitWithoutSeparator(s[1..], sep);
      assert s == [s[0]] + s[1..];
    }
  }

  /** A separator splits the parts of its left and right neighbours apart. */
  lemma {:induction false} SplitAround(a: string, sep: char, b: string)
    ensures Split(a + [sep] + b, sep) == Split(a, sep) + Split(b, sep)
    decreases |a|
  {
    var s := a + [sep] + b;
    if |a| == 0 {
      assert s[1..] == b;
    } else {
      assert s[1..] == a[1..] + [sep] + b;
      SplitAround(a[1..], sep, b);
      SplitStep(a, sep);
      SplitStep(s, sep);
    }
  }

  /** One step of `Split`, named so that callers need not unfold it. */
  lemma SplitStep(s: string, sep: char)
    requires |s| > 0
    ensures var rest := Split(s[1..], sep);
      Split(s, sep) == if s[0] == sep then [""] + rest else [[s[0]] + rest[0]] + rest[1..]
  {
  }

  /** Splitting a join of separator-free parts gives the parts back. */
  lemma {:induction false} JoinThenSplit(parts: seq<string>, sep: char)
    requires |parts| >= 1
    requires forall i :: 0 <= i < |parts| ==> sep !in parts[i]
    ensures Split(Join(parts, sep), sep) == parts
    decreases |parts|
  {
    if |parts| == 1 {
      SplitWithoutSeparator(parts[0], sep);
    } else {
      JoinThenSplit(parts[1..], sep);
      SplitWithoutSeparator(parts[0], sep);
      SplitAround(parts[0], sep, Join(parts[1..], sep));
      assert parts == [parts[0]] + parts[1..];
    }
  }

  /** The last segment is the separator-free suffix that the last separator
      (if any) introduces. */
  lemma {:induction false} LastSegmentIsSuffix(s: string, sep: char)
    ensures var r := LastSegment(s, sep);
      && sep !in r
      && |r| <= |s|
      && s[|s| - |r|..] == r
      && (|r| == |s| || s[|s| - |r| - 1] == sep)
    decreases |s|
  {
    if |s| > 0 {
      var rest := Split(s[1..], sep);
      SplitStep(s, sep);
      LastSegmentIsSuffix(s[1..], sep);
      var t := LastSegment(s[1..], sep);
      assert s[1..][|s[1..]| - |t|..] == s[|s| - |t|..];
      if s[0] == sep {
        assert LastSegment(s, sep) == t;
      } else if |rest| == 1 {
        SplitThenJoin(s[1..], sep);
        assert rest[0] == s[1..];
        assert LastSegment(s, sep) == [s[0]] + s[1..] == s;
      } else {
        var parts := [[s[0]] + rest[0]] + rest[1..];
        assert parts[|parts| - 1] == rest[|rest| - 1];
        assert LastSegment(s, sep) == t;
        if |t| == |s[1..]| {
          assert t == s[1..];
          SplitWithoutSeparator(s[1..], sep);
          assert false;
        }
        assert s[1..][|s[1..]| - |t| - 1] == s[|s| - |t| - 1];
      }
    }
  }

  /** The last segment is `b` exactly when the string is `b` or ends with a
      separator followed by `b`. */
  lemma LastSegmentIs(s: string, sep: char, b: string)
    requires sep !in b
    ensures LastSegment(s, sep) == b
        <==> (s == b || (|s| > |b| && s[|s| - |b| - 1..] == [sep] + b))
  {
    LastSegmentIsSuffix(s, sep);
    if s == b {
      SplitWithoutSeparator(s, sep);
    } else if |s| > |b| && s[|s| - |b| - 1..] == [sep] + b {
      var x := s[..|s| - |b| - 1];
      assert s == x + [sep] + b;
      SplitAround(x, sep, b);
      SplitWithoutSeparator(b, sep);
    }
  }

  /** The characters Python 2 treats as whitespace in `str.split()`:
      space, tab, newline, vertical tab, form feed and carriage return. */
  predicate IsSpace(c: char)
  {
    c == ' ' || '\t' <= c <= '\r'
  }

  /** A token of `str.split()`: non-empty and free of whitespace. */
  predicate IsWord(w: string)
  {
    |w| > 0 && forall i :: 0 <= i < |w| ==> !IsSpace(w[i])
  }

  /** Length of the run of non-whitespace characters that starts `s`. */
  function WordLength(s: string): (n: nat)
    ensures n <= |s|
    ensures forall i :: 0 <= i < n ==> !IsSpace(s[i])
    ensures n < |s| ==> IsSpace(s[n])
  {
    if |s| == 0 || IsSpace(s[0]) then 0 else 1 + WordLength(s[1..])
  }

  /** `s.split()`: the maximal runs of non-whitespace characters, in order;
      leading, trailing and repeated whitespace produce no empty tokens. */
  function Words(s: string): (ws: seq<string>)
    ensures forall i :: 0 <= i < |ws| ==> IsWord(ws[i])
    decreases |s|
  {
    if |s| == 0 then []
    else if IsSpace(s[0]) then Words(s[1..])
    else
      var n := WordLength(s);
      [s[..n]] + Words(s[n..])
  }

  /** The non-whitespace characters of `s`, in order. */
  function NonSpace(s: string): string
  {
    if |s| == 0 then ""
    else if IsSpace(s[0]) then NonSpace(s[1..])
    else [s[0]] + NonSpace(s[1..])
  }

  function Concat(ws: seq<string>): string
  {
    if |ws| == 0 then "" else ws[0] + Concat(ws[1..])
  }

  lemma {:induction false} NonSpaceAppend(a: string, b: string)
    ensures NonSpace(a + b) == NonSpace(a) + NonSpace(b)
    decreases |a|
  {
    if |a| > 0 {
      assert (a + b)[1..] == a[1..] + b;
      NonSpaceAppend(a[1..], b);
    } else {
      assert a + b == b;
    }
  }

  lemma {:induction false} NonSpaceOfWord(w: string)
    requires forall i :: 0 <= i < |w| ==> !IsSpace(w[i])
    ensures NonSpace(w) == w
    decreases |w|
  {
    if |w| > 0 {
      NonSpaceOfWord(w[1..]);
      assert w == [w[0]] + w[1..];
    }
  }

  /** `str.split()` loses only whitespace: its tokens, concatenated, are the
      non-whitespace characters of the input. */
  lemma {:induction false} WordsKeepAllText(s: string)
    ensures Concat(Words(s)) == NonSpace(s)
    decreases |s|
  {
    if |s| > 0 {
      if IsSpace(s[0]) {
        WordsKeepAllText(s[1..]);
      } else {
        var n := WordLength(s);
        WordsKeepAllText(s[n..]);
        assert s == s[..n] + s[n..];
        NonSpaceAppend(s[..n], s[n..]);
        NonSpaceOfWord(s[..n]);
        assert Words(s)[1..] == Words(s[n..]);
      }
    }
  }

  lemma {:induction false} WordLengthOfWord(w: string, t: string)
    requires forall i :: 0 <= i < |w| ==> !IsSpace(w[i])
    requires |t| == 0 || IsSpace(t[0])
    ensures WordLength(w + t) == |w|
    decreases |w|
  {
    if |w| > 0 {
      assert (w + t)[1..] == w[1..] + t;
      WordLengthOfWord(w[1..], t);
    } else {
      assert w + t == t;
    }
  }

  /** A word followed by whitespace (or nothing) is the first token. */
  lemma WordsOfWordThen(w: string, t: string)
    requires IsWord(w)
    requires |t| == 0 || IsSpace(t[0])
    ensures Words(w + t) == [w] + Words(t)
  {
    WordLengthOfWord(w, t);
    assert (w + t)[..|w|] == w;
    assert (w + t)[|w|..] == t;
  }

  /** Tokens joined with single spaces split back into the same tokens. */
  lemma {:induction false} WordsOfJoin(ws: seq<string>)
    requires forall i :: 0 <= i < |ws| ==> IsWord(ws[i])
    ensures Words(Join(ws, ' ')) == ws
    decreases |ws|
  {
    if |ws| == 1 {
      WordsOfWordThen(ws[0], "");
      assert ws[0] + "" == ws[0];
    } else if |ws| > 1 {
      var rest := Join(ws[1..], ' ');
      WordsOfJoin(ws[1..]);
      WordsOfWordThen(ws[0], [' '] + rest);
      assert ws[0] + [' '] + rest == ws[0] + ([' '] + rest);
      assert ([' '] + rest)[1..] == rest;
      assert ws == [ws[0]] + ws[1..];
    }
  }

  lemma {:induction false} WordLengthBeforeSpace(s: string, c: char)
    requires IsSpace(c)
    ensures WordLength(s + [c]) == WordLength(s)
    decreases |s|
  {
    if |s| == 0 {
      assert s + [c] == [c];
    } else {
      assert (s + [c])[1..] == s[1..] + [c];
      WordLengthBeforeSpace(s[1..], c);
    }
  }

  /** Trailing whitespace, such as the newline ending git's hook input line,
      adds no token. */
  lemma {:induction false} WordsIgnoreTrailingSpace(s: string, c: char)
    requires IsSpace(c)
    ensures Words(s + [c]) == Words(s)
    decreases |s|
  {
    if |s| == 0 {
      assert s + [c] == [c];
      assert [c][1..] == [];
    } else if IsSpace(s[0]) {
      assert (s + [c])[1..] == s[1..] + [c];
      WordsIgnoreTrailingSpace(s[1..], c);
    } else {
      var n := WordLength(s);
      WordLengthBeforeSpace(s, c);
      assert (s + [c])[..n] == s[..n];
      assert (s + [c])[n..] == s[n..] + [c];
      WordsIgnoreTrailingSpace(s[n..], c);
    }
  }
}
